=== FILE: README.md ===
# visionOS tutorial game core, in Dafny

This project models the logic at the centre of the "visionOS – From Zero to Hero" tutorial
game. In that game a toy biplane and numbered rings are placed in the room and the plane is
flown with pinch gestures. The model covers:

- **Ring mesh** (`RBTorus`): the triangle-index generation for the torus grid, the UV fold,
  and the mesh descriptor's order-preserving copy of the vertex attributes.
- **Game phases** (`GameSettings`, `GameController`): the six-phase `GameState`, and the
  controller's `changeState`. That function stores the phase, launches the plane on `play`,
  and notifies the observer with (old, new). It also covers the repeating 1/60 s tick, which
  moves the plane while the phase is `play` and otherwise stops its timer, plus the
  position setter and the left and right turns.
- **Main window** (`MainWindow`): the primary button's transition table per phase, and the
  Left/Right buttons shown only in `play`.
- **Game objects** (`RBGameObject`): the shared id counter; the position, activity, rotation
  and scale setters that mirror onto the attached entity; heading changes; `fly`; and the
  per-tick `update`, which moves x and z only.
- **Hand tracking** (`RBHandTracking`): the joint registry keyed by "chirality-joint", and
  the collision filter. The filter runs only while tracking is active, drops the reversed
  repeat of the previous pair, and dispatches to the joint-joint or joint-object callback.
- **Game space** (`GameSpace`):
  - the pinch table (left index tip on left thumb tip turns by −10, right by +10);
  - the ring-anchor observer;
  - placement at the head position moved one metre along world −z, which places the airplane
    in `placeAircraft` and a numbered ring otherwise;
  - a composed system of window, controller, space and tracker, with an invariant proved
    over every sequence of events.
- **Utilities**:
  - `RBLog`: the severity threshold, the handler-before-print order and the prefix table.
  - `RBMath`: degree/radian conversion, the composed rotation, distance and the random
    helpers.
  - `RBExtensions`: the 4×4 matrix translation get/set, the axis extraction and
    `gravityAligned`.

How the model stands in for the platform:

- Every `Float` is a mathematical real, so rounding is not modelled.
- `Float.pi` is 0x1.921fb4p1 = 3.141592502593994140625, the single-precision value just
  below pi (the standard library rounds pi toward zero).
- Sine, cosine, square root, `normalize` and the random draw are parameters of the
  functions that use them.
- `UInt32(x)` traps when x is outside [0, 2^32). It appears as a precondition on the index
  generator and as a `None` result of `RBMath.Random`.
- Each firing of a timer is an input event. Timers are counted, not scheduled in time.

The files come from two snapshots of the tutorial. Torus, log, settings, controller and main
window come from part 03. Game object, math, extensions, hand tracking and game space come
from part 04. The model composes them as one program, with two choices:

- The controller's `airplane.changeDirectionTo(angle:)` is part 04's `changeDirection(to:)`.
- The `GameController.changeDirection(by:)` that the pinch callback calls is not defined in
  any file of this model. The system records each call as a requested turn.

`generate` does not check segment counts. A count of zero gives an empty index list, since
360/0 is infinite and each vertex loop runs once. A negative count makes the angle step
negative, so a vertex loop of `addTorusVertices` never ends and `generate` never returns.

## Model

| member | source | states |
|---|---|---|
| RBTorus.QuadSharesDiagonal | part-03/visionos-tutorial/RBTorus.swift:39-44 | In each group of six indices the first equals the sixth and the third equals the fourth, so both triangles of a cell share the diagonal (i,j)–(i+1,j+1). |
| RBTorus.QuadInGrid | part-03/visionos-tutorial/RBTorus.swift:34-44 | With row stride segments+1, every index of cell (i,j) of a tubeSegments×segments grid is non-negative and below (tubeSegments+1)·(segments+1). |
| RBTorus.ToUInt32 | part-03/visionos-tutorial/RBTorus.swift:39-44 | The `UInt32` conversion keeps every value, provided each value fits in 32 bits; otherwise the source traps. |
| RBTorus.GenerateIndices | part-03/visionos-tutorial/RBTorus.swift:32-49 | The index list has 6·segments·tubeSegments entries when both counts are positive and is empty otherwise. Cell (i,j)'s six indices sit at positions 6(i·segments+j)..+5. Every index is inside the vertex grid. |
| RBTorus.RowMajorCell | part-03/visionos-tutorial/RBTorus.swift:36-49 | Cells are emitted row-major: index position k belongs to cell i = (k/6)/segments, j = (k/6)%segments, corner k%6. |
| RBTorus.TorusUV | part-03/visionos-tutorial/RBTorus.swift:80-83 | Both texture coordinates lie in [0,1] whenever both angles lie in [0,360]. |
| RBTorus.UVFoldIsMirror | part-03/visionos-tutorial/RBTorus.swift:80-83 | The folded v is symmetric about jAngle = 180, where it is 0, and is 1 at both seams. |
| RBTorus.GenerateMeshDescriptor | part-03/visionos-tutorial/RBTorus.swift:103-125 | Positions, normals and texture coordinates have the vertex count, and entry k comes from vertex k. The triangles are the given indices. Per-face materials are attached iff the material list is non-empty. |
| RBTorus.Generate | part-03/visionos-tutorial/RBTorus.swift:29-52 | The generated descriptor has 6·segments·tubeSegments triangle indices (a multiple of 3), refers only to existing vertices when the vertex grid is complete, and has no materials. |
| RBGameObject.Create | part-04/visionos-tutorial/RBGameObject.swift:17-26 | Construction increments the shared counter and takes its new value as id, keeps the entity, and starts active at the origin with tag 0, scale 1, rotation (0,90,0), no velocity and heading 0. |
| RBGameObject.CreateMany | part-04/visionos-tutorial/RBGameObject.swift:165-174 | n constructions from counter c leave the counter at c+n and hand out strictly increasing ids in (c, c+n]. |
| RBGameObject.IncreasingIdsAreDistinct | part-04/visionos-tutorial/RBGameObject.swift:166-167 | Strictly increasing ids are pairwise distinct. |
| RBGameObject.SetActive | part-04/visionos-tutorial/RBGameObject.swift:43-52 | Setting `isActive` also sets the entity's `isEnabled`, if there is an entity, and changes nothing else. |
| RBGameObject.SetPosition | part-04/visionos-tutorial/RBGameObject.swift:72-83 | Setting the position also moves the entity, if there is one, and changes nothing else. |
| RBGameObject.SetRotation | part-04/visionos-tutorial/RBGameObject.swift:85-105 | Setting the Euler rotation gives the entity the quaternion `RBMath.rotate` builds from it, and changes nothing else. |
| RBGameObject.SetScale | part-04/visionos-tutorial/RBGameObject.swift:107-118 | Setting the scale stores s and, when there is an entity, gives it the uniform scale (s,s,s); no entity is created or dropped, and nothing else changes. |
| RBGameObject.ChangeDirectionTo | part-04/visionos-tutorial/RBGameObject.swift:129-131 | `changeDirection(to:)` sets the heading and nothing else. |
| RBGameObject.ChangeDirectionBy | part-04/visionos-tutorial/RBGameObject.swift:133-135 | `changeDirection(by:)` adds the delta to the heading and changes nothing else. |
| RBGameObject.HeadingIsNotWrapped | part-04/visionos-tutorial/RBGameObject.swift:129-135 | Turns accumulate additively, the heading moves by exactly δ for every δ (no folding modulo 360), and turning by δ is setting the heading to angle+δ. |
| RBGameObject.RemoveFromScene | part-04/visionos-tutorial/RBGameObject.swift:137-141 | Removing from the scene leaves the object without an entity and changes nothing else. |
| RBGameObject.RemoveFromSceneIdempotent | part-04/visionos-tutorial/RBGameObject.swift:137-141 | Removing from the scene drops the entity; doing it twice is the same as once. |
| RBGameObject.Reset | part-04/visionos-tutorial/RBGameObject.swift:143-145 | `reset` makes the object active and, when there is an entity, enables it; no entity is created or dropped, and nothing else changes. |
| RBGameObject.Fly | part-04/visionos-tutorial/RBGameObject.swift:160-163 | `fly` sets velocity 0.2 and heading −90 and changes nothing else. |
| RBGameObject.Update | part-04/visionos-tutorial/RBGameObject.swift:147-158 | One tick moves x by v·dt·cos(heading) and z by v·dt·sin(heading). It keeps y, heading, velocity, id, tag, activity and scale. It sets rotation.y to −(heading − 90) and mirrors position and rotation onto the entity. |
| RBGameObject.StationaryUpdateKeepsPosition | part-04/visionos-tutorial/RBGameObject.swift:147-153 | With velocity 0 a tick leaves the position unchanged. |
| RBGameObject.AdvanceIsStraight | part-04/visionos-tutorial/RBGameObject.swift:147-153 | n ticks of dt keep heading and velocity and move the object n·v·dt along the heading: a straight line. |
| RBGameObject.OneSecondOfFlight | part-04/visionos-tutorial/RBGameObject.swift:147-163 | After `fly` from the origin, 60 ticks of 1/60 s move the plane to (0,0,−0.2) when cos(−90°)=0 and sin(−90°)=−1. |
| RBGameObject.MutatorsKeepMirror | part-04/visionos-tutorial/RBGameObject.swift:43-83 | If the entity shows the object's position and activity, it still does after update, the setters, fly, reset, turns or removal. |
| GameSettings.StatesAreClosed | part-03/visionos-tutorial/GameSettings.swift:20-27 | There are exactly six phases. |
| GameSettings.InitialSettings | part-03/visionos-tutorial/GameSettings.swift:30 | The settings start in `start`. |
| GameSettings.SetState | part-03/visionos-tutorial/GameSettings.swift:30 | Assigning `state` stores the new phase whatever the current one is. |
| GameSettings.AnyPhaseFollowsAnyPhase | part-03/visionos-tutorial/GameSettings.swift:29-31 | There is no legality check: from every phase, one write reaches every phase. |
| GameController.InitialPhasesAgree | part-03/visionos-tutorial/GameController.swift:22 | The controller and the settings both start in `start`. |
| GameController.InitialController | part-03/visionos-tutorial/GameController.swift:20-25 | The shared instance starts in `start` with no airplane, no observer and no running timer. |
| GameController.StartGame | part-03/visionos-tutorial/GameController.swift:61-75 | Without an airplane `start` does nothing. Otherwise the plane flies and one more repeating timer is scheduled. |
| GameController.SetAirplane | part-03/visionos-tutorial/GameController.swift:25 | Assigning `airplane` stores the given object (or none) and changes nothing else. |
| GameController.SetObserver | part-03/visionos-tutorial/GameController.swift:24 | Assigning `onStateChanged` sets whether an observer is present and changes nothing else. |
| GameController.ChangeState | part-03/visionos-tutorial/GameController.swift:37-48 | The new phase is stored whatever the old one was. The launch happens iff the new phase is `play` and there is an airplane. The observer, if any, hears (old, new) last. Entering `play` with an airplane sets it flying and adds one live timer; otherwise only the phase changes. There is exactly one launch effect when there is a launch, exactly one notification, carrying (old, new), when there is an observer, and no other effect. |
| GameController.PlayWithoutAirplane | part-03/visionos-tutorial/GameController.swift:37-48 | Entering `play` without an airplane launches nothing but still notifies the observer. |
| GameController.Tick | part-03/visionos-tutorial/GameController.swift:50-59 | A tick reports true iff the phase is `play`. It then updates the airplane by dt; otherwise it changes nothing. |
| GameController.FireTimer | part-03/visionos-tutorial/GameController.swift:69-74 | A timer firing outside `play` invalidates itself (one fewer live timer); in `play` it ticks by 1/60. |
| GameController.TickLoopStopsOutsidePlay | part-03/visionos-tutorial/GameController.swift:50-74 | Outside `play` a timer's first firing stops it, whatever happens later. |
| GameController.TickLoopAdvancesAirplane | part-03/visionos-tutorial/GameController.swift:50-74 | In `play`, n firings keep the phase and the timers, and advance the airplane by n updates of 1/60 s. |
| GameController.SetAirplanePosition | part-03/visionos-tutorial/GameController.swift:77-83 | The airplane is moved through its mirroring setter; without an airplane nothing changes. |
| GameController.TurnLeft | part-03/visionos-tutorial/GameController.swift:85-92 | The heading drops by 90 and nothing else changes; without an airplane nothing changes. |
| GameController.TurnRight | part-03/visionos-tutorial/GameController.swift:94-101 | The heading rises by 90 and nothing else changes; without an airplane nothing changes. |
| GameController.LeftRightCancel | part-03/visionos-tutorial/GameController.swift:85-101 | A left and a right turn cancel in either order. |
| GameController.ReplayStartsSecondTimer | part-03/visionos-tutorial/GameController.swift:61-75 | Entering `play`, leaving it and entering it again with no tick between leaves two live timers. |
| MainWindow.Offered | part-03/visionos-tutorial/MainWindow.swift:35-129 | Every phase shows the primary button; Left and Right are shown exactly in `play`. |
| MainWindow.PrimaryTarget | part-03/visionos-tutorial/MainWindow.swift:35-133 | The primary button never writes `end` or `placeRings`, and writes `start` exactly from `placeAircraft`. |
| MainWindow.Press | part-03/visionos-tutorial/MainWindow.swift:35-133 | A button not shown changes nothing. The primary button writes its target to the settings and passes the same value to `changeState`. Left and Right turn the airplane. |
| MainWindow.PressKeepsPhasesEqual | part-03/visionos-tutorial/MainWindow.swift:36-133 | If the window's and the controller's phases agree before a press, they agree after it. |
| MainWindow.TransitionTable | part-03/visionos-tutorial/MainWindow.swift:36-133 | Entry by entry: `start`→`placeAircraft`, `placeAircraft`→`start`, `placed`→`play`, `play`→`placed`, `placeRings`→`placed`, `end`→`placed`; hence the first two and the middle two toggle. |
| MainWindow.IntroOnlyReachesIntro | part-03/visionos-tutorial/MainWindow.swift:36-56 | From `start`, primary presses alone only alternate between `start` and `placeAircraft`. |
| RBHandTracking.InitialTracker | part-04/visionos-tutorial/RBHandTracking.swift:39-61 | Tracking starts in `none`, unattached, with all three joint maps empty, no callbacks and last pair ("",""). |
| RBHandTracking.HandleCollision | part-04/visionos-tutorial/RBHandTracking.swift:93-118 | Collisions are ignored unless tracking is active or when they reverse the last pair. Otherwise the pair is recorded. Both names registered fires the joint callback with both infos. Exactly one registered fires the object callback with that info and the other name. No callback fires otherwise or when unset. |
| RBHandTracking.ReversedRepeatIsDropped | part-04/visionos-tutorial/RBHandTracking.swift:98-117 | Right after a handled (A,B), the reported (B,A) fires nothing and changes nothing. |
| RBHandTracking.SameOrderRepeatIsHandled | part-04/visionos-tutorial/RBHandTracking.swift:98-117 | Repeating (A,B) in the same order with A≠B is handled again exactly as the first time. |
| RBHandTracking.UnnamedPairDroppedAtFirst | part-04/visionos-tutorial/RBHandTracking.swift:60-101 | Because the last pair starts as ("",""), a first collision of two unnamed entities is dropped. |
| RBHandTracking.KeysSeparateHands | part-04/visionos-tutorial/RBHandTracking.swift:152 | A left-hand key never equals a right-hand key. |
| RBHandTracking.AttachToNode | part-04/visionos-tutorial/RBHandTracking.swift:182-187 | Attaching sets the parent and changes nothing else. |
| RBHandTracking.ActivateTracking | part-04/visionos-tutorial/RBHandTracking.swift:122-180 | Unattached, nothing happens. Otherwise the info is stored in the hand's map under the joint and in the name map under "chirality-joint". Every other name keeps its info. The attachment, the state, the last pair and both callbacks are unchanged. |
| RBHandTracking.GetHandInfo | part-04/visionos-tutorial/RBHandTracking.swift:87-89 | The lookup finds an info exactly for registered names, and it is the registered one. |
| RBHandTracking.AnchorUpdate | part-04/visionos-tutorial/RBHandTracking.swift:202-250 | After a hand-anchor update the state is `active` iff the anchor is tracked and one of that hand's registered joints is tracked, else `inactive`; nothing else changes. |
| RBHandTracking.SetCallbacks | part-04/visionos-tutorial/RBHandTracking.swift:39-40 | Installing the callbacks changes nothing else. |
| GameSpace.PinchTurn | part-04/visionos-tutorial/GameSpace.swift:144-167 | A left index-tip/thumb-tip pair, in either order, turns by −10; a right pair turns by +10; any other pair turns nothing. |
| GameSpace.PinchTurnSymmetric | part-04/visionos-tutorial/GameSpace.swift:144-167 | The requested turn does not depend on which entity the event names first. |
| GameSpace.CrossHandPairsDoNotTurn | part-04/visionos-tutorial/GameSpace.swift:144-167 | A finger of one hand touching a finger of the other requests no turn. |
| GameSpace.RingAnchorEnabled | part-04/visionos-tutorial/GameSpace.swift:70-82 | The ring anchor is enabled iff the new phase is `placeAircraft` or `placeRings`. |
| GameSpace.PlacingPoint | part-04/visionos-tutorial/GameSpace.swift:184-187 | The placing point is the head position with world z reduced by 1 (ahead of the user only when they face −z). |
| GameSpace.Observe | part-04/visionos-tutorial/GameSpace.swift:70-82 | The observer changes only the ring anchor; after a notification it reflects the notified phase; with no notification nothing changes. |
| GameSpace.InitialSystem | part-04/visionos-tutorial/GameSpace.swift:28-36 | The program starts with window and controller in `start`, the initial controller and space, a fresh tracker, object counter 0 and no turns. |
| GameSpace.PlaceAirplane | part-04/visionos-tutorial/GameSpace.swift:181-198 | Without an airplane nothing happens. Otherwise the airplane goes to the placing point, the settings show `placeRings` while the controller keeps its phase, and the preview ring is enabled. |
| GameSpace.PlaceRing | part-04/visionos-tutorial/GameSpace.swift:200-225 | Without content nothing happens. Otherwise the counter increments and a ring labelled with it is added at the placing point. |
| GameSpace.PlaceObject | part-04/visionos-tutorial/GameSpace.swift:172-179 | In `placeAircraft` the airplane is placed; in every other phase a ring is placed. |
| GameSpace.SetupHandTracking | part-04/visionos-tutorial/GameSpace.swift:127-170 | After set-up both index tips and both thumb tips are registered under their keys, each in its own hand's map. No other name or joint is added. The tracker is attached, the joint callback is installed, and the state and the last pair are unchanged. |
| GameSpace.Load | part-04/visionos-tutorial/GameSpace.swift:39-89 | Without the scene nothing happens, and a second load changes nothing. Without the attachment the space gains exactly the enabled anchor and the disabled preview ring, and nothing else changes. With it, the space is marked loaded with the attachment, the observer is installed, the tracker becomes exactly the result of the hand-tracking setup, no timer starts, and a found model becomes the controller's airplane: a new enabled game object with the next id. |
| GameSpace.OnStateChanged | part-04/visionos-tutorial/GameSpace.swift:70-81 | The observer enables the ring anchor exactly in `placeAircraft` and `placeRings` and changes nothing else in the space. |
| GameSpace.Step | part-04/visionos-tutorial/GameSpace.swift:91-167 | A window press reaches the space only through the observer. The place button does nothing unless its anchor is shown. A collision turns left by 10 iff the tracker dispatches a left index-tip/thumb-tip pinch, turns right by 10 iff it dispatches a right one, and otherwise adds no turn. Only collisions add turns, at most one each, and earlier turns are kept. A hand update is exactly the anchor update of the tracker. A timer firing changes only the controller. |
| GameSpace.TurnsNeedActiveTracking | part-04/visionos-tutorial/RBHandTracking.swift:93-118 | A collision adds a turn only while tracking is active and the joint callback is installed. |
| GameSpace.LostTrackingStopsTurns | part-04/visionos-tutorial/RBHandTracking.swift:202-250 | After the hand anchor reports untracked, the next collision adds no turn. |
| GameSpace.StepKeepsInvariant | part-04/visionos-tutorial/GameSpace.swift:172-225 | Every event keeps the invariant. The window's phase equals the controller's, or is `placeRings` while the controller is in `placeAircraft`. `end` is never entered. Ring labels are 1,2,3,… in placement order. Every requested turn is ±10. The space has an airplane iff the controller has. |
| GameSpace.RunKeepsInvariant | part-04/visionos-tutorial/GameSpace.swift:172-225 | Any sequence of events keeps that invariant. |
| GameSpace.EveryRunKeepsInvariant | part-04/visionos-tutorial/GameSpace.swift:172-225 | From launch, no sequence of events reaches `end` or breaks the ring numbering. |
| GameSpace.PrimaryPressUpdatesRingAnchor | part-04/visionos-tutorial/GameSpace.swift:70-82 | Once the observer is installed, a primary press leaves the ring anchor shown exactly in `placeAircraft`/`placeRings`. |
| GameSpace.PlacingTheAirplaneSplitsPhases | part-04/visionos-tutorial/GameSpace.swift:184-196 | After starting, loading and placing the airplane, the window shows `placeRings` while the controller is still in `placeAircraft`, and the plane is at the placing point. |
| GameSpace.PlacedAirplaneTakesOff | part-04/visionos-tutorial/GameSpace.swift:70-82 | Two primary presses after that bring both phases to `play`, with the plane flying on one timer and the ring anchor hidden. |
| RBLog.RawValue | part-03/visionos-tutorial/RBLog.swift:22-29 | Raw values run from trace = 0 to fatal = 5. |
| RBLog.SeverityTotalOrder | part-03/visionos-tutorial/RBLog.swift:22-29 | trace < debug < info < warning < error < fatal, and the order is total and antisymmetric. |
| RBLog.SetThreshold | part-03/visionos-tutorial/RBLog.swift:39-46 | Setting the severity keeps the handler. |
| RBLog.SetHandler | part-03/visionos-tutorial/RBLog.swift:48-55 | Setting the handler keeps the severity. |
| RBLog.PrefixTable | part-03/visionos-tutorial/RBLog.swift:102-115 | Every prefix starts with "[RBLOG] ", and the six prefixes are pairwise different. |
| RBLog.Emit | part-03/visionos-tutorial/RBLog.swift:59-116 | A message at level s produces output iff raw(s) ≥ raw(threshold). The output is the level's prefix followed by the message. It is preceded by exactly one handler call with (message, s) iff a handler is set. |
| RBLog.FatalAlwaysEmitted | part-03/visionos-tutorial/RBLog.swift:59-63 | Fatal messages are emitted under every threshold. |
| RBLog.DefaultThresholdDropsOnlyTrace | part-03/visionos-tutorial/RBLog.swift:34-93 | With the default threshold `debug`, exactly trace messages are dropped. |
| RBLog.ThresholdMonotone | part-03/visionos-tutorial/RBLog.swift:59-93 | Raising the threshold never lets through a message that was dropped before. |
| RBLog.NewHandlerReplacesOld | part-03/visionos-tutorial/RBLog.swift:48-100 | After a handler is set, only that handler is called. |
| RBMath.DegreesToRadians | part-04/visionos-tutorial/RBMath.swift:74-76 | The conversion keeps the sign and maps only 0 to 0. |
| RBMath.RadiansToDegrees | part-04/visionos-tutorial/RBMath.swift:78-80 | The conversion keeps the sign and maps only 0 to 0. |
| RBMath.ConversionsAreInverse | part-04/visionos-tutorial/RBMath.swift:74-80 | The two conversions undo each other in both orders. |
| RBMath.HalfTurn | part-04/visionos-tutorial/RBMath.swift:74-80 | 180 degrees is pi radians and back. |
| RBMath.RotateIsProductOfAxisRotations | part-04/visionos-tutorial/RBMath.swift:25-58 | `rotate(x,y,z)` equals `rotateX(x) * rotateY(y) * rotateZ(z)` in that order. |
| RBMath.RotateZeroIsIdentity | part-04/visionos-tutorial/RBMath.swift:46-58 | With sin 0 = 0 and cos 0 = 1, rotating by (0,0,0) is the identity quaternion. |
| RBMath.DistanceSymmetric | part-04/visionos-tutorial/RBMath.swift:67-70 | The distance is symmetric in its two points. |
| RBMath.DistanceToSelfIsZero | part-04/visionos-tutorial/RBMath.swift:67-70 | The distance from a point to itself is 0 when the square root of 0 is 0. |
| RBMath.Random | part-04/visionos-tutorial/RBMath.swift:84-86 | The call traps iff max−min+1 does not fit in `UInt32`. Otherwise, with a draw below the bound, the result lies in [min, max], and it is min when the bound is 0. |
| RBMath.Random01f | part-04/visionos-tutorial/RBMath.swift:88-93 | The result is k·0.1 for an integer k in 0..10, hence in [0,1]. |
| RBMath.RandomTrueFalse | part-04/visionos-tutorial/RBMath.swift:95-102 | The result is true iff the draw is 1. |
| RBMath.RandomPlusMinus | part-04/visionos-tutorial/RBMath.swift:104-111 | The result is 1.0 iff the draw is 1 and −1.0 iff the draw is 0. |
| RBExtensions.Xyz | part-04/visionos-tutorial/RBExtensions.swift:21-25 | `xyz` returns components 0, 1, 2 in order. |
| RBExtensions.FromTranslation | part-04/visionos-tutorial/RBExtensions.swift:28-33 | `init(translation:)` has identity basis columns and w = 1, and its translation reads back as v. |
| RBExtensions.WithTranslation | part-04/visionos-tutorial/RBExtensions.swift:39-41 | Setting the translation keeps columns 0–2, forces column 3's w to 1 and reads back as the new value. |
| RBExtensions.TranslationRoundTrip | part-04/visionos-tutorial/RBExtensions.swift:35-41 | Reading the translation after setting it returns the value set; the last of two sets wins. |
| RBExtensions.WriteBackTranslation | part-04/visionos-tutorial/RBExtensions.swift:35-41 | Writing back the translation just read changes the matrix iff column 3's w was not 1. |
| RBExtensions.RotationMatrix | part-04/visionos-tutorial/RBExtensions.swift:48-56 | The 3×3 rotation part is the xyz of columns 0, 1, 2 in that order. |
| RBExtensions.RotationIgnoresTranslation | part-04/visionos-tutorial/RBExtensions.swift:35-56 | Setting the translation changes none of the three axes nor the rotation part. |
| RBExtensions.GravityAligned | part-04/visionos-tutorial/RBExtensions.swift:59-75 | The gravity-aligned matrix has column 1 = (0,1,0,0), w = 0 in columns 0 and 2, and column 3 (the translation) unchanged. |
| RBExtensions.GravityAlignedKeepsShape | part-04/visionos-tutorial/RBExtensions.swift:59-75 | Aligning twice keeps the up column and the original column 3. |

## Left out

- RBTorus.Generate: for a negative segment count the model returns a descriptor with no indices, where the source's vertex loop never terminates; non-termination is not modelled.
- The log calls (`rbDebug`, `rbWarning`, `rbTrace`) inside GameController, RBGameObject, RBHandTracking and GameSpace are not recorded in their effects; only `RBLog` itself models logging.
- Torus vertex geometry (`addTorusVertices`): positions and normals are single-precision trigonometry. The `while angle <= 360` loops with accumulated float steps need not emit exactly n+1 rows and columns. `RBTorus.Generate` therefore takes the vertex list as a parameter, and its bound on indices assumes a complete grid.
- `MeshResource.generate`, `createRing` and the ring number's text mesh: calls into RealityKit.
- ARKit: the session, `HandTrackingProvider`, the anchor update stream, joint transforms and `setTransformMatrix`. `RBHandTracking.AnchorUpdate` reduces an update to which registered joints are tracked.
- `onJointFollowCallBack` and the heart gesture (`processHeartGesture`): float geometry on joint positions. Neither is used by the game space.
- `RBHandTracking.setup`: it only logs warnings.
- The meshes and collision shapes `activateTracking` builds. The `rbFatal` branch after them cannot be taken.
- `isProviderSupported`, `isReadyToRun` and `provider`: platform queries.
- `RBHandTracking.Key`: assumes string interpolation prints the chirality and joint case names ("left", "indexFingerTip").
- The head position (`RBHeadPose`): it is an input of each placement.
- SwiftUI: view layout, window and immersive-space opening, button labels. A load of the space can happen at any time after launch.
- The airplane entity's 180° turn at load and the `isEnabled` writes on entities other than through `RBGameObject`.
- `RBLog`: `String(format:)` formatting of the variadic helpers. `print` and the handler call are recorded as effects.
- `RBMath.angleBetweenPoints`: `atan2` on floats.
- `RBExtensions`: the quaternion `rotation` property, `look(at:)` and `forward`, which are RealityKit or simd calls.
- `RBGameObject`: the plain `tag`, `velocity`, `angle` and `entity` property writes (record field updates).
- `GameController.changeDirection(by:)`: not defined in any file of this model. Its calls are recorded as requested turns, not applied to the plane.
- Float rounding everywhere, including `Float(1.0/60)` for the tick length.
- Timers as real time: each firing is a separate event, and timers are counted rather than scheduled.

=== FILE: gamecontroller.dfy ===
/**
 The game controller: the current phase, an optional airplane, an optional
 state-change observer and the tick loops started on entering `play`.
 A phase change stores the new phase, starts the game when the new phase is
 `play`, and then notifies the observer with (old, new). Each scheduled
 timer fires a tick every 1/60 s; a tick that finds the phase is no longer
 `play` stops its timer and moves nothing.
 */
module GameController {
  import opened Simd
  import opened Optional
  import opened GameSettings
  import RBGameObject

  /** The timer period in seconds, also the `deltaTime` of each tick. */
  const TickInterval: real := 1.0 / 60.0

  /**
   `liveTimers` counts the repeating timers `start()` has scheduled and that
   have not yet invalidated themselves.
   */
  datatype Controller = Controller(
    phase: GameState,
    airplane: Option<RBGameObject.GameObject>,
    hasObserver: bool,
    liveTimers: nat)

  /** The shared instance on first use: phase `start`, nothing registered. */
  function InitialController(): (c: Controller)
    ensures c.phase == Start && c.airplane.None? && !c.hasObserver && c.liveTimers == 0
  {
    Controller(Start, None, false, 0)
  }

  /** The settings object and the controller begin in the same phase. */
  lemma InitialPhasesAgree()
    ensures InitialSettings().state == InitialController().phase
  {
  }

  /** What a phase change does besides storing the phase, in order. */
  datatype Effect = Launched | Notified(from: GameState, to: GameState)

  datatype Transition = Transition(next: Controller, effects: seq<Effect>)

  /** The private `start()`: without an airplane nothing happens; otherwise it flies and one more timer runs. */
  function StartGame(c: Controller): (t: Transition)
    ensures c.airplane.None? ==> t == Transition(c, [])
    ensures c.airplane.Some? ==>
      t.effects == [Launched]
      && t.next == c.(airplane := Some(RBGameObject.Fly(c.airplane.value)), liveTimers := c.liveTimers + 1)
  {
    match c.airplane
    case None => Transition(c, [])
    case Some(plane) =>
      Transition(c.(airplane := Some(RBGameObject.Fly(plane)), liveTimers := c.liveTimers + 1), [Launched])
  }

  /**
   `changeState(to:)`: the new phase is stored whatever the old one was;
   the game starts only for `play`; the observer, if any, hears (old, new) last.
   */
  function ChangeState(c: Controller, s: GameState): (t: Transition)
    ensures t.next.phase == s
    ensures t.next.hasObserver == c.hasObserver
    ensures (Launched in t.effects) <==> s == Play && c.airplane.Some?
    ensures c.hasObserver <==> |t.effects| > 0 && t.effects[|t.effects| - 1] == Notified(c.phase, s)
    ensures forall k :: 0 <= k < |t.effects| && t.effects[k].Notified? ==> k == |t.effects| - 1
    ensures forall e :: e in t.effects && e.Notified? ==> e == Notified(c.phase, s)
    ensures |t.effects| == (if s == Play && c.airplane.Some? then 1 else 0) + (if c.hasObserver then 1 else 0)
    ensures s != Play ==> t.next == c.(phase := s)
    ensures s == Play && c.airplane.None? ==> t.next == c.(phase := Play)
    ensures s == Play && c.airplane.Some? ==>
      t.next == c.(phase := Play, airplane := Some(RBGameObject.Fly(c.airplane.value)), liveTimers := c.liveTimers + 1)
  {
    var oldState := c.phase;
    var stored := c.(phase := s);
    var started := if s == Play then StartGame(stored) else Transition(stored, []);
    var notified := if c.hasObserver then [Notified(oldState, started.next.phase)] else [];
    Transition(started.next, started.effects + notified)
  }

  /** Entering `play` without an airplane neither fails nor starts anything, and the observer still hears it. */
  lemma PlayWithoutAirplane(c: Controller)
    requires c.airplane.None? && c.hasObserver
    ensures ChangeState(c, Play).effects == [Notified(c.phase, Play)]
    ensures ChangeState(c, Play).next == c.(phase := Play)
  {
  }

  /** Registering an observer replaces the one before: there is a single slot. */
  function SetObserver(c: Controller, present: bool): (r: Controller)
    ensures r.hasObserver == present && r.(hasObserver := c.hasObserver) == c
  {
    c.(hasObserver := present)
  }

  /** Assigning the public `airplane` property. */
  function SetAirplane(c: Controller, plane: Option<RBGameObject.GameObject>): (r: Controller)
    ensures r.airplane == plane && r.(airplane := c.airplane) == c
  {
    c.(airplane := plane)
  }

  /**
   The private `update(deltaTime:)`: false, and nothing moves, once the phase
   is not `play`; otherwise the airplane (if any) advances one step and the
   result is true.
   */
  function Tick(c: Controller, deltaTime: real, trig: Trig): (r: (Controller, bool))
    ensures r.1 <==> c.phase == Play
    ensures !r.1 ==> r.0 == c
    ensures r.1 ==> r.0.phase == c.phase && r.0.hasObserver == c.hasObserver && r.0.liveTimers == c.liveTimers
    ensures r.1 ==> r.0.airplane.Some? == c.airplane.Some?
    ensures r.1 && c.airplane.Some? ==> r.0.airplane.value == RBGameObject.Update(c.airplane.value, deltaTime, trig)
  {
    if c.phase != Play then (c, false)
    else
      var plane := if c.airplane.Some? then Some(RBGameObject.Update(c.airplane.value, deltaTime, trig)) else None;
      (c.(airplane := plane), true)
  }

  /** One firing of one live timer: a false tick invalidates that timer. */
  function FireTimer(c: Controller, trig: Trig): (r: Controller)
    ensures c.liveTimers == 0 ==> r == c
    ensures c.liveTimers > 0 && c.phase != Play ==> r == c.(liveTimers := c.liveTimers - 1)
    ensures c.liveTimers > 0 && c.phase == Play ==> r == Tick(c, TickInterval, trig).0
  {
    if c.liveTimers == 0 then c
    else
      var (next, keepGoing) := Tick(c, TickInterval, trig);
      if keepGoing then next else next.(liveTimers := next.liveTimers - 1)
  }

  /**
   The tick loop of one timer, for at most n firings with nothing else
   happening in between: it stops at the first tick that sees a phase other
   than `play`.
   */
  function RunTimer(c: Controller, n: nat, trig: Trig): Controller
    requires c.liveTimers > 0
    decreases n
  {
    if n == 0 then c
    else
      var (next, keepGoing) := Tick(c, TickInterval, trig);
      if !keepGoing then next.(liveTimers := next.liveTimers - 1)
      else RunTimer(next, n - 1, trig)
  }

  /** Outside `play`, the loop's first tick ends it, and the airplane does not move. */
  lemma TickLoopStopsOutsidePlay(c: Controller, n: nat, trig: Trig)
    requires c.liveTimers > 0 && c.phase != Play
    ensures RunTimer(c, n + 1, trig) == c.(liveTimers := c.liveTimers - 1)
  {
  }

  /** In `play`, n firings advance the airplane exactly n steps and keep the timer alive. */
  lemma {:induction false} TickLoopAdvancesAirplane(c: Controller, n: nat, trig: Trig)
    requires c.liveTimers > 0 && c.phase == Play
    ensures RunTimer(c, n, trig).phase == Play && RunTimer(c, n, trig).liveTimers == c.liveTimers
    ensures RunTimer(c, n, trig).airplane.Some? == c.airplane.Some?
    ensures c.airplane.Some? ==>
      RunTimer(c, n, trig).airplane.value == RBGameObject.Advance(c.airplane.value, n, TickInterval, trig)
    decreases n
  {
    if n > 0 {
      var next := Tick(c, TickInterval, trig).0;
      TickLoopAdvancesAirplane(next, n - 1, trig);
    }
  }

  /** `setAirplanePosition`: moves the airplane through its mirroring setter; a no-op without one. */
  function SetAirplanePosition(c: Controller, pos: Vec3): (r: Controller)
    ensures c.airplane.None? ==> r == c
    ensures c.airplane.Some? ==>
      r.airplane.Some? && r.airplane.value.position == pos
      && r == c.(airplane := Some(RBGameObject.SetPosition(c.airplane.value, pos)))
  {
    match c.airplane
    case None => c
    case Some(plane) => c.(airplane := Some(RBGameObject.SetPosition(plane, pos)))
  }

  /** `turnLeft`: heading minus 90 degrees. */
  function TurnLeft(c: Controller): (r: Controller)
    ensures c.airplane.None? ==> r == c
    ensures c.airplane.Some? ==>
      r.airplane.Some? && r.airplane.value.angle == c.airplane.value.angle - 90.0
      && r.airplane.value.(angle := c.airplane.value.angle) == c.airplane.value
    ensures r.(airplane := c.airplane) == c
  {
    match c.airplane
    case None => c
    case Some(plane) => c.(airplane := Some(RBGameObject.ChangeDirectionTo(plane, plane.angle - 90.0)))
  }

  /** `turnRight`: heading plus 90 degrees. */
  function TurnRight(c: Controller): (r: Controller)
    ensures c.airplane.None? ==> r == c
    ensures c.airplane.Some? ==>
      r.airplane.Some? && r.airplane.value.angle == c.airplane.value.angle + 90.0
      && r.airplane.value.(angle := c.airplane.value.angle) == c.airplane.value
    ensures r.(airplane := c.airplane) == c
  {
    match c.airplane
    case None => c
    case Some(plane) => c.(airplane := Some(RBGameObject.ChangeDirectionTo(plane, plane.angle + 90.0)))
  }

  /** A left turn and a right turn cancel, in either order. */
  lemma LeftRightCancel(c: Controller)
    ensures TurnRight(TurnLeft(c)) == c
    ensures TurnLeft(TurnRight(c)) == c
  {
  }

  /**
   Entering `play` twice with no tick in between leaves two live timers,
   each moving the airplane on every period.
   */
  lemma ReplayStartsSecondTimer(c: Controller, plane: RBGameObject.GameObject)
    requires c.airplane == Some(plane) && c.liveTimers == 0
    ensures ChangeState(ChangeState(ChangeState(c, Play).next, Placed).next, Play).next.liveTimers == 2
  {
  }
}

=== FILE: gamesettings.dfy ===
/** The game's phases and the observable settings object that holds the current one. */
module GameSettings {

  /** `GameState`: exactly six phases. */
  datatype GameState = Start | PlaceAircraft | PlaceRings | Placed | Play | End

  function AllStates(): set<GameState>
  {
    {Start, PlaceAircraft, PlaceRings, Placed, Play, End}
  }

  /** The enumeration is closed: every phase is one of the six, and the six are distinct. */
  lemma StatesAreClosed()
    ensures forall s: GameState :: s in AllStates()
    ensures |AllStates()| == 6
  {
    forall s: GameState
      ensures s in AllStates()
    {
      match s
      case Start =>
      case PlaceAircraft =>
      case PlaceRings =>
      case Placed =>
      case Play =>
      case End =>
    }
  }

  /** `GameSettings`: an unguarded published `state` field. */
  datatype Settings = Settings(state: GameState)

  /** A fresh settings object is in `start`. */
  function InitialSettings(): (s: Settings)
    ensures s.state == Start
  {
    Settings(Start)
  }

  /** Assigning `state`: any phase may follow any phase. */
  function SetState(settings: Settings, s: GameState): (r: Settings)
    ensures r.state == s
  {
    settings.(state := s)
  }

  /** Every phase can be written from every phase; there is no legality check. */
  lemma AnyPhaseFollowsAnyPhase(from: GameState, to: GameState)
    ensures SetState(Settings(from), to).state == to
  {
  }
}

=== FILE: gamespace.dfy ===
/**
 The immersive game space, composed with the main window, the controller
 and the hand tracker into one system. The space owns the ring anchor (a
 head-locked anchor one metre ahead, with the "place" button attached), a
 preview ring, the airplane entity and a ring counter. It turns pinches of
 index tip on thumb tip into heading changes, follows the controller's
 phase changes through the state-change observer, and places the airplane
 or a numbered ring one metre along world -z from the head.
 */
module GameSpace {
  import opened Simd
  import opened Optional
  import opened GameSettings
  import GameController
  import MainWindow
  import RBGameObject
  import opened RBHandTracking

  /** The heading change a left pinch (index tip on thumb tip) asks for. */
  const LeftPinchTurn: real := -10.0

  /** The heading change a right pinch asks for. */
  const RightPinchTurn: real := 10.0

  /** The pair is the index tip and the thumb tip of hand c, in either order. */
  predicate Pinch(c: Chirality, a: HandInfo, b: HandInfo)
  {
    (a.chirality == c && a.joint == IndexFingerTip && b.chirality == c && b.joint == ThumbTip)
    || (b.chirality == c && b.joint == IndexFingerTip && a.chirality == c && a.joint == ThumbTip)
  }

  /**
   The joint-collision callback: the turn it requests, checked in the order
   A/B left, A/B right, B/A left, B/A right; no turn for any other pair.
   */
  function PinchTurn(a: HandInfo, b: HandInfo): (r: Option<real>)
    ensures r == Some(LeftPinchTurn) <==> Pinch(LeftHand, a, b)
    ensures r == Some(RightPinchTurn) <==> Pinch(RightHand, a, b)
    ensures r.None? <==> !Pinch(LeftHand, a, b) && !Pinch(RightHand, a, b)
  {
    if a.chirality == LeftHand && a.joint == IndexFingerTip && b.chirality == LeftHand && b.joint == ThumbTip then
      Some(LeftPinchTurn)
    else if a.chirality == RightHand && a.joint == IndexFingerTip && b.chirality == RightHand && b.joint == ThumbTip then
      Some(RightPinchTurn)
    else if b.chirality == LeftHand && b.joint == IndexFingerTip && a.chirality == LeftHand && a.joint == ThumbTip then
      Some(LeftPinchTurn)
    else if b.chirality == RightHand && b.joint == IndexFingerTip && a.chirality == RightHand && a.joint == ThumbTip then
      Some(RightPinchTurn)
    else None
  }

  /** The callback does not care which entity the collision event names first. */
  lemma PinchTurnSymmetric(a: HandInfo, b: HandInfo)
    ensures PinchTurn(a, b) == PinchTurn(b, a)
  {
  }

  /** A finger of one hand touching a finger of the other never turns the airplane. */
  lemma CrossHandPairsDoNotTurn(a: HandInfo, b: HandInfo)
    requires a.chirality != b.chirality
    ensures PinchTurn(a, b).None?
  {
  }

  /** The observer's rule: the ring anchor is shown exactly while aircraft or rings are being placed. */
  function RingAnchorEnabled(newState: GameState): (r: bool)
    ensures r <==> newState in {PlaceAircraft, PlaceRings}
    ensures r ==> MainWindow.PrimaryTarget(newState) != newState
  {
    match newState
    case PlaceAircraft => true
    case PlaceRings => true
    case _ => false
  }

  /**
   The placing point: the head position moved one metre along world -z.
   That is in front of the user only when they face -z; the preview ring
   itself hangs one metre ahead of the head whatever the heading.
   */
  function PlacingPoint(head: Vec3): (p: Vec3)
    ensures p.x == head.x && p.y == head.y && p.z == head.z - 1.0
    ensures p != head
  {
    head.(z := head.z - 1.0)
  }

  /** A placed ring and the number shown on it. */
  datatype Ring = Ring(number: nat, position: Vec3)

  /**
   The view's state. `loaded` is the reality content being kept; the
   anchor and the preview ring exist once loaded; `hasAttachment` records
   that the button attachment was found.
   */
  datatype Space = Space(
    loaded: bool,
    hasAttachment: bool,
    hasAirplane: bool,
    ringAnchorEnabled: bool,
    placeRingEnabled: bool,
    counter: nat,
    rings: seq<Ring>)

  function InitialSpace(): (s: Space)
    ensures !s.loaded && !s.hasAirplane && s.counter == 0 && s.rings == []
  {
    Space(false, false, false, false, false, 0, [])
  }

  /** `onStateChanged` as the space installs it. */
  function OnStateChanged(space: Space, newState: GameState): (r: Space)
    ensures r.ringAnchorEnabled == RingAnchorEnabled(newState)
    ensures r.(ringAnchorEnabled := space.ringAnchorEnabled) == space
  {
    space.(ringAnchorEnabled := RingAnchorEnabled(newState))
  }

  /** The observer applied to a controller's effects, in order. */
  function Observe(space: Space, effects: seq<GameController.Effect>): (r: Space)
    ensures r.(ringAnchorEnabled := space.ringAnchorEnabled) == space
    ensures (forall k :: 0 <= k < |effects| ==> !effects[k].Notified?) ==> r == space
    ensures |effects| > 0 && effects[|effects| - 1].Notified? ==>
      r.ringAnchorEnabled == RingAnchorEnabled(effects[|effects| - 1].to)
    decreases |effects|
  {
    if effects == [] then space
    else
      var last := effects[|effects| - 1];
      var before := Observe(space, effects[..|effects| - 1]);
      if last.Notified? then OnStateChanged(before, last.to) else before
  }

  /**
   The whole system: the window's phase and the controller, the space, the
   hand tracker, the shared object-id counter, and the heading changes the
   pinch callback has requested from the controller, in order.
   */
  datatype System = System(
    ui: MainWindow.Ui,
    space: Space,
    tracker: Tracker,
    objectCounter: nat,
    turns: seq<real>)

  function InitialSystem(): (s: System)
    ensures s.ui.settings.state == Start && s.ui.controller.phase == Start
    ensures s.turns == [] && s.space == InitialSpace()
    ensures s.ui.controller == GameController.InitialController()
    ensures s.tracker == InitialTracker() && s.objectCounter == 0
  {
    System(MainWindow.Ui(InitialSettings(), GameController.InitialController()),
           InitialSpace(), InitialTracker(), 0, [])
  }

  /** `placeAirplaneAtHeadPose`: a no-op without an airplane; the controller's phase is not changed. */
  function PlaceAirplane(s: System, head: Vec3): (r: System)
    ensures !s.space.hasAirplane ==> r == s
    ensures s.space.hasAirplane ==>
      r.ui.settings.state == PlaceRings
      && r.ui.controller == GameController.SetAirplanePosition(s.ui.controller, PlacingPoint(head))
      && r.ui.controller.phase == s.ui.controller.phase
      && r.space == s.space.(placeRingEnabled := true)
      && r.tracker == s.tracker && r.turns == s.turns && r.objectCounter == s.objectCounter
  {
    if !s.space.hasAirplane then s
    else
      var controller := GameController.SetAirplanePosition(s.ui.controller, PlacingPoint(head));
      s.(ui := MainWindow.Ui(SetState(s.ui.settings, PlaceRings), controller),
         space := s.space.(placeRingEnabled := true))
  }

  /** `placeRingAtHeadPose`: a no-op before the content is loaded; the new ring shows the incremented counter. */
  function PlaceRing(space: Space, head: Vec3): (r: Space)
    ensures !space.loaded ==> r == space
    ensures space.loaded ==>
      r.counter == space.counter + 1
      && r.rings == space.rings + [Ring(r.counter, PlacingPoint(head))]
      && r.(counter := space.counter, rings := space.rings) == space
  {
    if !space.loaded then space
    else
      var counter := space.counter + 1;
      space.(counter := counter, rings := space.rings + [Ring(counter, PlacingPoint(head))])
  }

  /** `placeObjectAtHeadPose`: the airplane in `placeAircraft`, a ring in every other phase. */
  function PlaceObject(s: System, head: Vec3): (r: System)
    ensures s.ui.settings.state == PlaceAircraft ==> r == PlaceAirplane(s, head)
    ensures s.ui.settings.state != PlaceAircraft ==> r == s.(space := PlaceRing(s.space, head))
  {
    if s.ui.settings.state == PlaceAircraft then PlaceAirplane(s, head)
    else s.(space := PlaceRing(s.space, head))
  }

  /** `setupHandTracking`: attach, register both index tips and thumb tips, install the joint callback. */
  function SetupHandTracking(t: Tracker): (r: Tracker)
    ensures r.attached && r.hasJointCallback && r.hasObjectCallback == t.hasObjectCallback
    ensures GetHandInfo(r, Key(LeftHand, IndexFingerTip)) == Some(HandInfo(LeftHand, IndexFingerTip, false))
    ensures GetHandInfo(r, Key(LeftHand, ThumbTip)) == Some(HandInfo(LeftHand, ThumbTip, false))
    ensures GetHandInfo(r, Key(RightHand, IndexFingerTip)) == Some(HandInfo(RightHand, IndexFingerTip, false))
    ensures GetHandInfo(r, Key(RightHand, ThumbTip)) == Some(HandInfo(RightHand, ThumbTip, false))
    ensures r.state == t.state && r.lastNameA == t.lastNameA && r.lastNameB == t.lastNameB
    ensures r.leftHand == t.leftHand[IndexFingerTip := HandInfo(LeftHand, IndexFingerTip, false)]
                                    [ThumbTip := HandInfo(LeftHand, ThumbTip, false)]
    ensures r.rightHand == t.rightHand[IndexFingerTip := HandInfo(RightHand, IndexFingerTip, false)]
                                      [ThumbTip := HandInfo(RightHand, ThumbTip, false)]
    ensures r.byName.Keys == t.byName.Keys + {Key(LeftHand, IndexFingerTip), Key(LeftHand, ThumbTip),
                                              Key(RightHand, IndexFingerTip), Key(RightHand, ThumbTip)}
  {
    var attached := AttachToNode(t);
    var t1 := ActivateTracking(attached, LeftHand, IndexFingerTip, false);
    var t2 := ActivateTracking(t1, LeftHand, ThumbTip, false);
    var t3 := ActivateTracking(t2, RightHand, IndexFingerTip, false);
    var t4 := ActivateTracking(t3, RightHand, ThumbTip, false);
    TipKeysDistinct();
    SetCallbacks(t4, true, t.hasObjectCallback)
  }

  /** The four registration keys of the set-up are pairwise different. */
  lemma TipKeysDistinct()
    ensures Key(LeftHand, IndexFingerTip) != Key(LeftHand, ThumbTip)
    ensures Key(RightHand, IndexFingerTip) != Key(RightHand, ThumbTip)
    ensures Key(LeftHand, IndexFingerTip) != Key(RightHand, IndexFingerTip)
    ensures Key(LeftHand, IndexFingerTip) != Key(RightHand, ThumbTip)
    ensures Key(LeftHand, ThumbTip) != Key(RightHand, IndexFingerTip)
    ensures Key(LeftHand, ThumbTip) != Key(RightHand, ThumbTip)
  {
    KeysSeparateHands(IndexFingerTip, IndexFingerTip);
    KeysSeparateHands(IndexFingerTip, ThumbTip);
    KeysSeparateHands(ThumbTip, IndexFingerTip);
    KeysSeparateHands(ThumbTip, ThumbTip);
    assert Key(LeftHand, IndexFingerTip)[5] == 'i' && Key(LeftHand, ThumbTip)[5] == 't';
    assert Key(RightHand, IndexFingerTip)[6] == 'i' && Key(RightHand, ThumbTip)[6] == 't';
  }

  /**
   The reality view's set-up. Nothing happens when the scene is not found;
   without the button attachment it stops after creating the anchor and the
   preview ring; otherwise it adopts the airplane model when there is one,
   installs the state-change observer and sets up hand tracking.
   */
  function Load(s: System, sceneFound: bool, attachmentFound: bool, model: Option<RBGameObject.Entity>): (r: System)
    ensures !sceneFound || s.space.loaded ==> r == s
    ensures sceneFound && !s.space.loaded ==>
      r.space.loaded && r.space.ringAnchorEnabled && !r.space.placeRingEnabled
      && r.space.hasAttachment == attachmentFound
      && r.space.counter == s.space.counter && r.space.rings == s.space.rings
      && r.ui.settings == s.ui.settings && r.ui.controller.phase == s.ui.controller.phase
      && r.turns == s.turns
    ensures sceneFound && !s.space.loaded && !attachmentFound ==>
      r == s.(space := s.space.(loaded := true, ringAnchorEnabled := true, placeRingEnabled := false,
                                hasAttachment := false))
    ensures sceneFound && !s.space.loaded && attachmentFound ==>
      r.ui.controller.hasObserver && r.tracker == SetupHandTracking(s.tracker)
      && r.ui.controller.liveTimers == s.ui.controller.liveTimers
      && r.space == s.space.(loaded := true, ringAnchorEnabled := true, placeRingEnabled := false,
                             hasAttachment := true, hasAirplane := s.space.hasAirplane || model.Some?)
      && (model.None? ==> r.ui.controller == s.ui.controller.(hasObserver := true)
                          && r.objectCounter == s.objectCounter)
      && (model.Some? ==>
            var created := RBGameObject.Create(s.objectCounter, Some(model.value.(isEnabled := true)));
            r.ui.controller == s.ui.controller.(airplane := Some(created.1), hasObserver := true)
            && r.objectCounter == created.0)
      && (r.space.hasAirplane <==> s.space.hasAirplane || model.Some?)
      && (model.Some? ==> r.ui.controller.airplane.Some?
                          && r.ui.controller.airplane.value.id == r.objectCounter == s.objectCounter + 1)
  {
    if !sceneFound || s.space.loaded then s
    else
      var space := s.space.(loaded := true, ringAnchorEnabled := true, placeRingEnabled := false,
                            hasAttachment := attachmentFound);
      if !attachmentFound then s.(space := space)
      else
        var (counter, controller, space') :=
          match model
          case None => (s.objectCounter, s.ui.controller, space)
          case Some(e) =>
            var (next, plane) := RBGameObject.Create(s.objectCounter, Some(e.(isEnabled := true)));
            (next, GameController.SetAirplane(s.ui.controller, Some(plane)), space.(hasAirplane := true));
        var observed := GameController.SetObserver(controller, true);
        s.(ui := s.ui.(controller := observed), space := space', tracker := SetupHandTracking(s.tracker),
           objectCounter := counter)
  }

  /** What can happen to the system. */
  datatype Input =
    | Press(button: MainWindow.Button)
    | Place(head: Vec3)
    | Collide(nameA: string, nameB: string)
    | HandUpdate(isTracked: bool, chirality: Chirality, trackedJoints: set<Joint>)
    | Timer(trig: Trig)
    | Loaded(sceneFound: bool, attachmentFound: bool, model: Option<RBGameObject.Entity>)

  /** The place button can be pressed only while its anchor is shown. */
  predicate PlaceButtonShown(space: Space)
  {
    space.loaded && space.hasAttachment && space.ringAnchorEnabled
  }

  /**
   One event. A window button's phase change reaches the space through the
   observer; a pinch recorded by the tracker becomes a requested turn; only
   a collision ever adds a turn, and at most one.
   */
  function Step(s: System, input: Input): (r: System)
    ensures s.turns <= r.turns && |r.turns| <= |s.turns| + 1
    ensures !input.Collide? ==> r.turns == s.turns
    ensures input.Press? ==>
      var pressed := MainWindow.Press(s.ui, input.button);
      r == s.(ui := pressed.ui, space := Observe(s.space, pressed.effects))
    ensures input.Place? && !PlaceButtonShown(s.space) ==> r == s
    ensures input.Place? && PlaceButtonShown(s.space) ==> r == PlaceObject(s, input.head)
    ensures input.Collide? ==>
      var handled := HandleCollision(s.tracker, input.nameA, input.nameB);
      r.(tracker := s.tracker, turns := s.turns) == s
      && r.tracker == handled.next
      && (r.turns == s.turns + [LeftPinchTurn] <==>
            handled.dispatch.JointCollision? && Pinch(LeftHand, handled.dispatch.infoA, handled.dispatch.infoB))
      && (r.turns == s.turns + [RightPinchTurn] <==>
            handled.dispatch.JointCollision? && Pinch(RightHand, handled.dispatch.infoA, handled.dispatch.infoB))
    ensures input.Collide? ==>
      var handled := HandleCollision(s.tracker, input.nameA, input.nameB);
      !(handled.dispatch.JointCollision?
        && (Pinch(LeftHand, handled.dispatch.infoA, handled.dispatch.infoB)
            || Pinch(RightHand, handled.dispatch.infoA, handled.dispatch.infoB)))
      ==> r.turns == s.turns
    ensures input.HandUpdate? ==>
      r == s.(tracker := AnchorUpdate(s.tracker, input.isTracked, input.chirality, input.trackedJoints))
    ensures input.Timer? ==>
      r == s.(ui := s.ui.(controller := GameController.FireTimer(s.ui.controller, input.trig)))
    ensures input.Loaded? ==> r == Load(s, input.sceneFound, input.attachmentFound, input.model)
  {
    match input
    case Press(b) =>
      var pressed := MainWindow.Press(s.ui, b);
      s.(ui := pressed.ui, space := Observe(s.space, pressed.effects))
    case Place(head) =>
      if PlaceButtonShown(s.space) then PlaceObject(s, head) else s
    case Collide(a, b) =>
      var handled := HandleCollision(s.tracker, a, b);
      var turn := if handled.dispatch.JointCollision? then PinchTurn(handled.dispatch.infoA, handled.dispatch.infoB) else None;
      assert (s.turns + [LeftPinchTurn])[|s.turns|] == LeftPinchTurn;
      assert (s.turns + [RightPinchTurn])[|s.turns|] == RightPinchTurn;
      s.(tracker := handled.next, turns := if turn.Some? then s.turns + [turn.value] else s.turns)
    case HandUpdate(tracked, c, joints) =>
      s.(tracker := AnchorUpdate(s.tracker, tracked, c, joints))
    case Timer(trig) =>
      s.(ui := s.ui.(controller := GameController.FireTimer(s.ui.controller, trig)))
    case Loaded(sceneFound, attachmentFound, model) =>
      Load(s, sceneFound, attachmentFound, model)
  }

  /** A pinch turns the airplane only while hand tracking is active and the joint callback is installed. */
  lemma TurnsNeedActiveTracking(s: System, nameA: string, nameB: string)
    ensures Step(s, Collide(nameA, nameB)).turns != s.turns ==>
      s.tracker.state == Active && s.tracker.hasJointCallback
  {
  }

  /** Once the hand anchor reports untracked, the next contact turns nothing. */
  lemma LostTrackingStopsTurns(s: System, c: Chirality, joints: set<Joint>, nameA: string, nameB: string)
    ensures Step(Step(s, HandUpdate(false, c, joints)), Collide(nameA, nameB)).turns == s.turns
  {
  }

  function Run(s: System, inputs: seq<Input>): System
    decreases |inputs|
  {
    if inputs == [] then s else Run(Step(s, inputs[0]), inputs[1..])
  }

  /**
   What every reachable system keeps: the window's phase equals the
   controller's, except that an airplane placement moves the window alone
   from `placeAircraft` to `placeRings`; `end` is never entered; the rings
   are numbered 1, 2, 3, ... in placement order; every requested turn is a
   pinch turn; the space has an airplane exactly when the controller does.
   */
  ghost predicate Invariant(s: System)
  {
    var shown := s.ui.settings.state;
    var phase := s.ui.controller.phase;
    (shown == phase || (shown == PlaceRings && phase == PlaceAircraft))
    && shown != End && phase != End
    && s.space.counter == |s.space.rings|
    && (forall k :: 0 <= k < |s.space.rings| ==> s.space.rings[k].number == k + 1)
    && (forall k :: 0 <= k < |s.turns| ==> s.turns[k] in {LeftPinchTurn, RightPinchTurn})
    && (s.space.hasAirplane <==> s.ui.controller.airplane.Some?)
    && (s.ui.controller.airplane.Some? ==> s.space.loaded)
    && (!s.tracker.hasJointCallback ==> !s.space.loaded || !s.space.hasAttachment)
  }

  lemma InitialSystemKeepsInvariant()
    ensures Invariant(InitialSystem())
  {
  }

  lemma StepKeepsInvariant(s: System, input: Input)
    requires Invariant(s)
    ensures Invariant(Step(s, input))
  {
    match input
    case Press(b) =>
      var pressed := MainWindow.Press(s.ui, b);
      assert pressed.ui.controller.airplane.Some? <==> s.ui.controller.airplane.Some?;
    case Place(head) =>
    case Collide(a, b) =>
    case HandUpdate(tracked, c, joints) =>
    case Timer(trig) =>
    case Loaded(sceneFound, attachmentFound, model) =>
  }

  lemma {:induction false} RunKeepsInvariant(s: System, inputs: seq<Input>)
    requires Invariant(s)
    ensures Invariant(Run(s, inputs))
    decreases |inputs|
  {
    if inputs != [] {
      StepKeepsInvariant(s, inputs[0]);
      RunKeepsInvariant(Step(s, inputs[0]), inputs[1..]);
    }
  }

  /** Starting from a fresh launch, no sequence of events reaches `end` or skips a ring number. */
  lemma EveryRunKeepsInvariant(inputs: seq<Input>)
    ensures Invariant(Run(InitialSystem(), inputs))
    ensures Run(InitialSystem(), inputs).ui.controller.phase != End
  {
    InitialSystemKeepsInvariant();
    RunKeepsInvariant(InitialSystem(), inputs);
  }

  /**
   Once the observer is installed, a primary press leaves the ring anchor
   shown exactly when the new phase places aircraft or rings.
   */
  lemma PrimaryPressUpdatesRingAnchor(s: System)
    requires s.ui.controller.hasObserver
    ensures var r := Step(s, Press(MainWindow.Primary));
      r.space.ringAnchorEnabled == RingAnchorEnabled(r.ui.controller.phase)
  {
    var pressed := MainWindow.Press(s.ui, MainWindow.Primary);
    var t := GameController.ChangeState(s.ui.controller, pressed.ui.settings.state);
    assert pressed.effects == t.effects;
  }

  /** Running two input sequences one after the other is running their concatenation. */
  lemma {:induction false} RunConcatenates(s: System, first: seq<Input>, second: seq<Input>)
    ensures Run(s, first + second) == Run(Run(s, first), second)
    decreases |first|
  {
    if first != [] {
      assert (first + second)[0] == first[0];
      assert (first + second)[1..] == first[1..] + second;
      RunConcatenates(Step(s, first[0]), first[1..], second);
    } else {
      assert first + second == second;
    }
  }

  /** Running one input is taking one step. */
  lemma RunSingle(s: System, input: Input)
    ensures Run(s, [input]) == Step(s, input)
  {
    assert [input][1..] == [];
  }

  /** The first two events of a session: start placing, then the space loads with an airplane model. */
  function Opened(e: RBGameObject.Entity): System
  {
    Step(Step(InitialSystem(), Press(MainWindow.Primary)), Loaded(true, true, Some(e)))
  }

  lemma OpenedSpace(e: RBGameObject.Entity)
    ensures Opened(e).ui.settings.state == PlaceAircraft && Opened(e).ui.controller.phase == PlaceAircraft
    ensures Opened(e).space.hasAirplane && PlaceButtonShown(Opened(e).space)
    ensures Opened(e).ui.controller.hasObserver && Opened(e).ui.controller.liveTimers == 0
    ensures Opened(e).space.rings == []
  {
    var s1 := Step(InitialSystem(), Press(MainWindow.Primary));
    assert s1.ui.settings.state == PlaceAircraft && s1.ui.controller.phase == PlaceAircraft;
    assert s1.ui.controller == GameController.InitialController().(phase := PlaceAircraft);
    assert !s1.space.loaded;
  }

  /**
   In the opened space, placing the airplane leaves the window showing
   `placeRings` while the controller is still in `placeAircraft`, with the
   airplane at the placing point.
   */
  lemma PlacingTheAirplaneSplitsPhases(e: RBGameObject.Entity, head: Vec3)
    ensures var s := Step(Opened(e), Place(head));
      s.ui.settings.state == PlaceRings && s.ui.controller.phase == PlaceAircraft
      && s.ui.controller.airplane.Some? && s.ui.controller.airplane.value.position == PlacingPoint(head)
      && s.space.placeRingEnabled && s.space.rings == []
  {
    OpenedSpace(e);
  }

  /** Running two inputs is taking two steps. */
  lemma RunPair(s: System, a: Input, b: Input)
    ensures Run(s, [a, b]) == Step(Step(s, a), b)
  {
    RunConcatenates(s, [a], [b]);
    RunSingle(s, a);
    RunSingle(Step(s, a), b);
    assert [a] + [b] == [a, b];
  }

  /** After the placement, the primary button stops placing: both phases become `placed`. */
  lemma StopPlacingAfterAirplane(e: RBGameObject.Entity, head: Vec3)
    ensures var s := Step(Step(Opened(e), Place(head)), Press(MainWindow.Primary));
      s.ui.settings.state == Placed && s.ui.controller.phase == Placed
      && s.ui.controller.liveTimers == 0 && s.ui.controller.hasObserver
      && s.ui.controller.airplane.Some?
  {
    PlacingTheAirplaneSplitsPhases(e, head);
    OpenedSpace(e);
  }

  /**
   Two primary presses after the placement bring both phases to `play`,
   with the airplane flying on one timer and the ring anchor hidden.
   */
  lemma PlacedAirplaneTakesOff(e: RBGameObject.Entity, head: Vec3)
    ensures var s := Run(Step(Opened(e), Place(head)), [Press(MainWindow.Primary), Press(MainWindow.Primary)]);
      s.ui.settings.state == Play && s.ui.controller.phase == Play
      && s.ui.controller.liveTimers == 1 && !s.space.ringAnchorEnabled
      && s.ui.controller.airplane.Some? && s.ui.controller.airplane.value.velocity == RBGameObject.DefaultVelocity
  {
    var s3 := Step(Opened(e), Place(head));
    var s4 := Step(s3, Press(MainWindow.Primary));
    StopPlacingAfterAirplane(e, head);
    PrimaryPressUpdatesRingAnchor(s4);
    RunPair(s3, Press(MainWindow.Primary), Press(MainWindow.Primary));
  }
}

=== FILE: mainwindow.dfy ===
/**
 The main window's button actions (the view layout is not modelled). Each
 phase shows one primary button that writes a new phase to the settings and
 hands the same value to `changeState`; the `play` phase also shows Left and
 Right, which turn the airplane.
 */
module MainWindow {
  import opened GameSettings
  import GameController

  datatype Button = Primary | Left | Right

  /** The buttons the window shows in each phase. */
  function Offered(s: GameState): (b: set<Button>)
    ensures Primary in b
    ensures Left in b <==> s == Play
    ensures Right in b <==> s == Play
  {
    if s == Play then {Primary, Left, Right} else {Primary}
  }

  /** The phase the primary button writes, per phase shown. */
  function PrimaryTarget(s: GameState): (t: GameState)
    ensures t != End && t != PlaceRings
    ensures t == Start <==> s == PlaceAircraft
  {
    match s
    case Start => PlaceAircraft
    case PlaceAircraft => Start
    case PlaceRings => Placed
    case Placed => Play
    case Play => Placed
    case End => Placed
  }

  /** The two states both the window and the controller keep. */
  datatype Ui = Ui(settings: Settings, controller: GameController.Controller)

  datatype Pressed = Pressed(ui: Ui, effects: seq<GameController.Effect>)

  /** A button press; a button the current phase does not show cannot be pressed and changes nothing. */
  function Press(ui: Ui, b: Button): (r: Pressed)
    ensures b !in Offered(ui.settings.state) ==> r == Pressed(ui, [])
    ensures b == Primary ==>
      r.ui.settings.state == PrimaryTarget(ui.settings.state)
      && r.ui.controller.phase == r.ui.settings.state
      && r == Pressed(Ui(r.ui.settings, GameController.ChangeState(ui.controller, r.ui.settings.state).next),
                      GameController.ChangeState(ui.controller, r.ui.settings.state).effects)
    ensures b == Left && ui.settings.state == Play ==>
      r == Pressed(ui.(controller := GameController.TurnLeft(ui.controller)), [])
    ensures b == Right && ui.settings.state == Play ==>
      r == Pressed(ui.(controller := GameController.TurnRight(ui.controller)), [])
  {
    if b !in Offered(ui.settings.state) then Pressed(ui, [])
    else
      match b
      case Primary =>
        var settings := SetState(ui.settings, PrimaryTarget(ui.settings.state));
        var t := GameController.ChangeState(ui.controller, settings.state);
        Pressed(Ui(settings, t.next), t.effects)
      case Left => Pressed(ui.(controller := GameController.TurnLeft(ui.controller)), [])
      case Right => Pressed(ui.(controller := GameController.TurnRight(ui.controller)), [])
  }

  /** Buttons keep the window's phase and the controller's phase equal. */
  lemma PressKeepsPhasesEqual(ui: Ui, b: Button)
    requires ui.settings.state == ui.controller.phase
    ensures Press(ui, b).ui.settings.state == Press(ui, b).ui.controller.phase
  {
  }

  /** `start` and `placeAircraft` toggle; `placed` and `play` toggle; `placeRings` and `end` lead to `placed`. */
  lemma TransitionTable()
    ensures PrimaryTarget(Start) == PlaceAircraft && PrimaryTarget(PlaceAircraft) == Start
    ensures PrimaryTarget(Placed) == Play && PrimaryTarget(Play) == Placed
    ensures PrimaryTarget(PrimaryTarget(Start)) == Start
    ensures PrimaryTarget(PrimaryTarget(Placed)) == Placed
    ensures PrimaryTarget(PlaceRings) == Placed && PrimaryTarget(End) == Placed
  {
  }

  /** The phase after n primary presses, starting from s. */
  function AfterPresses(s: GameState, n: nat): GameState
    decreases n
  {
    if n == 0 then s else AfterPresses(PrimaryTarget(s), n - 1)
  }

  /**
   From `start`, the buttons alone only alternate between `start` and
   `placeAircraft`: `placeRings`, `placed`, `play` and `end` are never reached.
   */
  lemma {:induction false} IntroOnlyReachesIntro(n: nat)
    ensures AfterPresses(Start, n) == (if n % 2 == 0 then Start else PlaceAircraft)
  {
    if n > 0 {
      if n == 1 {
      } else {
        IntroOnlyReachesIntro(n - 2);
        assert AfterPresses(Start, n) == AfterPresses(Start, n - 2);
      }
    }
  }
}

=== FILE: optional.dfy ===
/** An optional value: the Swift `T?` of the modelled code. */
module Optional {

  datatype Option<+T> = None | Some(value: T)
}

=== FILE: rbextensions.dfy ===
/**
 The structural 4x4 matrix helpers: `SIMD4.xyz`, the translation
 initializer and accessor, the axis extraction, the 3x3 rotation block and
 the shape of `gravityAligned`. A matrix is four columns, as in `simd_float4x4`.
 */
module RBExtensions {
  import opened Simd

  datatype Mat4 = Mat4(c0: Vec4, c1: Vec4, c2: Vec4, c3: Vec4)

  datatype Mat3 = Mat3(c0: Vec3, c1: Vec3, c2: Vec3)

  /** `SIMD4.xyz`: components 0, 1 and 2 in that order. */
  function Xyz(v: Vec4): (r: Vec3)
    ensures r.x == v.x && r.y == v.y && r.z == v.z
  {
    Vec3(v.x, v.y, v.z)
  }

  /** `init(translation:)`: identity basis with the vector in column 3. */
  function FromTranslation(v: Vec3): (m: Mat4)
    ensures m.c0 == Vec4(1.0, 0.0, 0.0, 0.0) && m.c1 == Vec4(0.0, 1.0, 0.0, 0.0)
    ensures m.c2 == Vec4(0.0, 0.0, 1.0, 0.0)
    ensures Translation(m) == v && m.c3.w == 1.0
  {
    Mat4(Vec4(1.0, 0.0, 0.0, 0.0),
         Vec4(0.0, 1.0, 0.0, 0.0),
         Vec4(0.0, 0.0, 1.0, 0.0),
         Vec4(v.x, v.y, v.z, 1.0))
  }

  /** The getter of `translation`. */
  function Translation(m: Mat4): Vec3
  {
    Xyz(m.c3)
  }

  /** The setter of `translation`: column 3 becomes (v, 1), the rest is kept. */
  function WithTranslation(m: Mat4, v: Vec3): (r: Mat4)
    ensures r.c0 == m.c0 && r.c1 == m.c1 && r.c2 == m.c2
    ensures r.c3.w == 1.0
    ensures Translation(r) == v
  {
    m.(c3 := Vec4(v.x, v.y, v.z, 1.0))
  }

  /** Setting then reading the translation returns what was set; setting twice keeps only the last. */
  lemma TranslationRoundTrip(m: Mat4, v: Vec3, u: Vec3)
    ensures Translation(WithTranslation(m, v)) == v
    ensures WithTranslation(WithTranslation(m, u), v) == WithTranslation(m, v)
  {
  }

  /** Writing back a matrix's own translation leaves it unchanged exactly when its column 3 already ends in 1. */
  lemma WriteBackTranslation(m: Mat4)
    ensures WithTranslation(m, Translation(m)) == m <==> m.c3.w == 1.0
  {
  }

  function XAxisOf(m: Mat4): Vec3 { Xyz(m.c0) }

  function YAxisOf(m: Mat4): Vec3 { Xyz(m.c1) }

  function ZAxisOf(m: Mat4): Vec3 { Xyz(m.c2) }

  /** `rotationMatrix`: the upper-left 3x3 block, built column by column from the three axes. */
  function RotationMatrix(m: Mat4): (r: Mat3)
    ensures r.c0 == Vec3(m.c0.x, m.c0.y, m.c0.z)
    ensures r.c1 == Vec3(m.c1.x, m.c1.y, m.c1.z)
    ensures r.c2 == Vec3(m.c2.x, m.c2.y, m.c2.z)
  {
    Mat3(XAxisOf(m), YAxisOf(m), ZAxisOf(m))
  }

  /** Changing the translation does not change the rotation block, nor any axis. */
  lemma RotationIgnoresTranslation(m: Mat4, v: Vec3)
    ensures RotationMatrix(WithTranslation(m, v)) == RotationMatrix(m)
    ensures XAxisOf(WithTranslation(m, v)) == XAxisOf(m)
    ensures YAxisOf(WithTranslation(m, v)) == YAxisOf(m)
    ensures ZAxisOf(WithTranslation(m, v)) == ZAxisOf(m)
  {
  }

  /**
   `gravityAligned`: z is projected onto the horizontal plane and normalised,
   y is forced to point up, x is their normalised cross product, and
   column 3 is copied. `normalize` is a parameter.
   */
  function GravityAligned(m: Mat4, normalize: Vec3 -> Vec3): (r: Mat4)
    ensures r.c1 == Vec4(0.0, 1.0, 0.0, 0.0)
    ensures r.c3 == m.c3
    ensures r.c0.w == 0.0 && r.c2.w == 0.0
    ensures Translation(r) == Translation(m)
  {
    var z := ZAxisOf(m);
    var projectedZ := Vec3(z.x, 0.0, z.z);
    var normalizedZ := normalize(projectedZ);
    var up := Vec3(0.0, 1.0, 0.0);
    var resultingX := normalize(Cross(up, normalizedZ));
    Mat4(Vec4(resultingX.x, resultingX.y, resultingX.z, 0.0),
         Vec4(up.x, up.y, up.z, 0.0),
         Vec4(normalizedZ.x, normalizedZ.y, normalizedZ.z, 0.0),
         m.c3)
  }

  /** Aligning twice gives the same y axis and translation as aligning once. */
  lemma GravityAlignedKeepsShape(m: Mat4, normalize: Vec3 -> Vec3)
    ensures GravityAligned(GravityAligned(m, normalize), normalize).c1 == GravityAligned(m, normalize).c1
    ensures GravityAligned(GravityAligned(m, normalize), normalize).c3 == m.c3
  {
  }
}

=== FILE: rbgameobject.dfy ===
/**
 A game object: an id drawn from a shared counter, a position, a heading in
 degrees that is never wrapped, a velocity and an active flag. Setters for
 `isActive`, `position`, `rotation` and `scale` mirror the value onto the
 attached scene entity, if there is one.
 */
module RBGameObject {
  import opened Simd
  import opened Optional
  import RBMath

  /** `DEFAULT_VELOCITY`. */
  const DefaultVelocity: real := 0.2

  /** The heading `fly()` starts with, in degrees. */
  const LaunchAngle: real := -90.0

  /** The scene entity, reduced to the properties the object writes. */
  datatype Entity = Entity(isEnabled: bool, position: Vec3, rotation: Quat, scale: Vec3)

  datatype GameObject = GameObject(
    id: nat,
    tag: int,
    entity: Option<Entity>,
    scale: real,
    position: Vec3,
    rotation: Vec3,
    velocity: real,
    angle: real,
    isActive: bool)

  /**
   Both initializers: the shared counter is incremented and its new value
   becomes the id; the rotation is set to (0, 90, 0) while no entity is
   attached yet, so an entity passed in is attached unchanged.
   Returns the new counter value and the object.
   */
  function Create(counter: nat, entity: Option<Entity>): (r: (nat, GameObject))
    ensures r.0 == counter + 1 && r.1.id == r.0
    ensures r.1.entity == entity && r.1.isActive
    ensures r.1.rotation == Vec3(0.0, 90.0, 0.0) && r.1.position == Vec3(0.0, 0.0, 0.0)
    ensures r.1.velocity == 0.0 && r.1.angle == 0.0
    ensures r.1.tag == 0 && r.1.scale == 1.0
  {
    var next := counter + 1;
    (next, GameObject(next, 0, entity, 1.0, Vec3(0.0, 0.0, 0.0), Vec3(0.0, 90.0, 0.0), 0.0, 0.0, true))
  }

  /**
   Constructs n objects in a row from the same counter: the ids come out
   strictly increasing, all above the starting counter, and the counter
   ends n higher.
   */
  method CreateMany(counter: nat, n: nat) returns (next: nat, ids: seq<nat>)
    ensures next == counter + n && |ids| == n
    ensures forall a, b :: 0 <= a < b < n ==> ids[a] < ids[b]
    ensures forall a :: 0 <= a < n ==> counter < ids[a] <= next
  {
    next := counter;
    ids := [];
    while |ids| < n
      invariant next == counter + |ids| && |ids| <= n
      invariant forall a, b :: 0 <= a < b < |ids| ==> ids[a] < ids[b]
      invariant forall a :: 0 <= a < |ids| ==> counter < ids[a] <= next
    {
      var created := Create(next, None);
      next := created.0;
      ids := ids + [created.1.id];
    }
  }

  /** Strictly increasing ids are pairwise distinct. */
  lemma IncreasingIdsAreDistinct(ids: seq<nat>)
    requires forall a, b :: 0 <= a < b < |ids| ==> ids[a] < ids[b]
    ensures forall a, b :: 0 <= a < |ids| && 0 <= b < |ids| && a != b ==> ids[a] != ids[b]
  {
  }

  /** The `isActive` setter: the flag is stored and copied to the entity's `isEnabled`. */
  function SetActive(o: GameObject, value: bool): (r: GameObject)
    ensures r.isActive == value
    ensures r.entity.Some? <==> o.entity.Some?
    ensures r.entity.Some? ==> r.entity.value == o.entity.value.(isEnabled := value)
    ensures r.(isActive := o.isActive, entity := o.entity) == o
  {
    var e := if o.entity.Some? then Some(o.entity.value.(isEnabled := value)) else None;
    o.(isActive := value, entity := e)
  }

  /** The `position` setter: stored and copied to the entity. */
  function SetPosition(o: GameObject, p: Vec3): (r: GameObject)
    ensures r.position == p
    ensures r.entity.Some? <==> o.entity.Some?
    ensures r.entity.Some? ==> r.entity.value == o.entity.value.(position := p)
    ensures r.(position := o.position, entity := o.entity) == o
  {
    var e := if o.entity.Some? then Some(o.entity.value.(position := p)) else None;
    o.(position := p, entity := e)
  }

  /**
   The private `rotation` setter: Euler angles in degrees are stored, and the
   entity gets the quaternion X * Y * Z of the three axis rotations.
   */
  function SetRotation(o: GameObject, rot: Vec3, trig: Trig): (r: GameObject)
    ensures r.rotation == rot
    ensures r.entity.Some? <==> o.entity.Some?
    ensures r.entity.Some? ==> r.entity.value == o.entity.value.(rotation := RBMath.Rotate(rot.x, rot.y, rot.z, trig))
    ensures r.(rotation := o.rotation, entity := o.entity) == o
  {
    var e := if o.entity.Some? then
        Some(o.entity.value.(rotation := QMul(QMul(RBMath.RotateX(rot.x, trig), RBMath.RotateY(rot.y, trig)), RBMath.RotateZ(rot.z, trig))))
      else None;
    RBMath.RotateIsProductOfAxisRotations(rot.x, rot.y, rot.z, trig);
    o.(rotation := rot, entity := e)
  }

  /** The `scale` setter: stored and copied to the entity on all three axes. */
  function SetScale(o: GameObject, s: real): (r: GameObject)
    ensures r.scale == s
    ensures r.entity.Some? <==> o.entity.Some?
    ensures o.entity.Some? ==> r.entity.value == o.entity.value.(scale := Vec3(s, s, s))
    ensures r.(scale := o.scale, entity := o.entity) == o
  {
    var e := if o.entity.Some? then Some(o.entity.value.(scale := Vec3(s, s, s))) else None;
    o.(scale := s, entity := e)
  }

  /** `changeDirection(to:)`, called `changeDirectionTo(angle:)` by the controller. */
  function ChangeDirectionTo(o: GameObject, angle: real): (r: GameObject)
    ensures r.angle == angle && r.(angle := o.angle) == o
  {
    o.(angle := angle)
  }

  /** `changeDirection(by:)`: adds to the heading, without wrapping. */
  function ChangeDirectionBy(o: GameObject, delta: real): (r: GameObject)
    ensures r.angle - o.angle == delta && r.(angle := o.angle) == o
  {
    o.(angle := o.angle + delta)
  }

  /** Turns accumulate: two relative turns are one turn by the sum, and the heading moves by exactly the turn, with no folding modulo 360. */
  lemma HeadingIsNotWrapped(o: GameObject, a: real, b: real)
    ensures ChangeDirectionBy(ChangeDirectionBy(o, a), b) == ChangeDirectionBy(o, a + b)
    ensures ChangeDirectionBy(o, a).angle - o.angle == a
    ensures ChangeDirectionBy(o, a) == ChangeDirectionTo(o, o.angle + a)
  {
  }

  /** `removeFromScene`: the entity is detached and forgotten. */
  function RemoveFromScene(o: GameObject): (r: GameObject)
    ensures r.entity.None? && r.(entity := o.entity) == o
  {
    o.(entity := None)
  }

  lemma RemoveFromSceneIdempotent(o: GameObject)
    ensures RemoveFromScene(RemoveFromScene(o)) == RemoveFromScene(o)
  {
  }

  /** `reset`: makes the object active again, through the mirroring setter. */
  function Reset(o: GameObject): (r: GameObject)
    ensures r.isActive
    ensures r.entity.Some? <==> o.entity.Some?
    ensures o.entity.Some? ==> r.entity.value == o.entity.value.(isEnabled := true)
    ensures r.(isActive := o.isActive, entity := o.entity) == o
  {
    SetActive(o, true)
  }

  /** `fly`: default velocity and launch heading. */
  function Fly(o: GameObject): (r: GameObject)
    ensures r.velocity == DefaultVelocity && r.angle == LaunchAngle
    ensures r.(velocity := o.velocity, angle := o.angle) == o
  {
    ChangeDirectionTo(o.(velocity := DefaultVelocity), LaunchAngle)
  }

  /** cos and sin of the heading, the way `update` takes them. */
  function HeadingCos(o: GameObject, trig: Trig): real
  {
    trig.cos(RBMath.DegreesToRadians(o.angle))
  }

  function HeadingSin(o: GameObject, trig: Trig): real
  {
    trig.sin(RBMath.DegreesToRadians(o.angle))
  }

  /**
   `update(deltaTime:)`: one step of planar dead reckoning. x and z advance
   by velocity * deltaTime times cos and sin of the heading, y stays; the
   yaw becomes -(angle - 90). Position and rotation go through their
   mirroring setters.
   */
  function Update(o: GameObject, deltaTime: real, trig: Trig): (r: GameObject)
    ensures r.position.x == o.position.x + o.velocity * deltaTime * HeadingCos(o, trig)
    ensures r.position.z == o.position.z + o.velocity * deltaTime * HeadingSin(o, trig)
    ensures r.position.y == o.position.y
    ensures r.rotation == Vec3(o.rotation.x, -1.0 * (o.angle - 90.0), o.rotation.z)
    ensures r.angle == o.angle && r.velocity == o.velocity
    ensures r.id == o.id && r.tag == o.tag && r.isActive == o.isActive && r.scale == o.scale
    ensures r.entity.Some? <==> o.entity.Some?
    ensures r.entity.Some? ==>
      r.entity.value.position == r.position
      && r.entity.value.rotation == RBMath.Rotate(r.rotation.x, r.rotation.y, r.rotation.z, trig)
      && r.entity.value.isEnabled == o.entity.value.isEnabled
      && r.entity.value.scale == o.entity.value.scale
  {
    var speedX := o.velocity * deltaTime;
    var speedY := o.velocity * deltaTime;
    var dx := trig.cos(RBMath.DegreesToRadians(o.angle));
    var dy := trig.sin(RBMath.DegreesToRadians(o.angle));
    var o1 := SetPosition(o, o.position.(x := o.position.x + speedX * dx));
    var o2 := SetPosition(o1, o1.position.(z := o1.position.z + speedY * dy));
    SetRotation(o2, o2.rotation.(y := -1.0 * (o.angle - 90.0)), trig)
  }

  /** A stationary object stays where it is. */
  lemma StationaryUpdateKeepsPosition(o: GameObject, deltaTime: real, trig: Trig)
    requires o.velocity == 0.0
    ensures Update(o, deltaTime, trig).position == o.position
  {
  }

  /** n consecutive updates with the same time step. */
  function Advance(o: GameObject, n: nat, deltaTime: real, trig: Trig): GameObject
    decreases n
  {
    if n == 0 then o else Advance(Update(o, deltaTime, trig), n - 1, deltaTime, trig)
  }

  /**
   Over n updates the heading and velocity stay put, so the object moves on
   a straight line: n times the single-step displacement, at constant height.
   */
  lemma {:induction false} AdvanceIsStraight(o: GameObject, n: nat, deltaTime: real, trig: Trig)
    ensures Advance(o, n, deltaTime, trig).angle == o.angle
    ensures Advance(o, n, deltaTime, trig).velocity == o.velocity
    ensures Advance(o, n, deltaTime, trig).position
         == Vec3(o.position.x + (n as real) * (o.velocity * deltaTime * HeadingCos(o, trig)),
                 o.position.y,
                 o.position.z + (n as real) * (o.velocity * deltaTime * HeadingSin(o, trig)))
    decreases n
  {
    if n > 0 {
      var o' := Update(o, deltaTime, trig);
      assert Advance(o, n, deltaTime, trig) == Advance(o', n - 1, deltaTime, trig);
      AdvanceIsStraight(o', n - 1, deltaTime, trig);
      var dx := o.velocity * deltaTime * HeadingCos(o, trig);
      var dz := o.velocity * deltaTime * HeadingSin(o, trig);
      assert o'.velocity * deltaTime * HeadingCos(o', trig) == dx;
      assert o'.velocity * deltaTime * HeadingSin(o', trig) == dz;
      ScaleStep(n - 1, dx);
      ScaleStep(n - 1, dz);
    }
  }

  lemma ScaleStep(m: nat, d: real)
    ensures d + (m as real) * d == ((m + 1) as real) * d
  {
  }

  /**
   A launched object at the origin, updated 60 times at 1/60 s with the
   launch heading pointing along -z, ends one second later at (0, 0, -0.2).
   */
  lemma OneSecondOfFlight(o: GameObject, trig: Trig)
    requires o.position == Vec3(0.0, 0.0, 0.0)
    requires trig.cos(RBMath.DegreesToRadians(LaunchAngle)) == 0.0
    requires trig.sin(RBMath.DegreesToRadians(LaunchAngle)) == -1.0
    ensures Advance(Fly(o), 60, 1.0 / 60.0, trig).position == Vec3(0.0, 0.0, -0.2)
  {
    AdvanceIsStraight(Fly(o), 60, 1.0 / 60.0, trig);
  }

  /** The entity shows the object's position and active flag. */
  predicate Mirrored(o: GameObject)
  {
    o.entity.Some? ==> o.entity.value.position == o.position && o.entity.value.isEnabled == o.isActive
  }

  /** The mutators keep a mirrored object mirrored; a position or active write makes that part agree. */
  lemma MutatorsKeepMirror(o: GameObject, deltaTime: real, trig: Trig, p: Vec3, a: real, b: bool)
    requires Mirrored(o)
    ensures Mirrored(Update(o, deltaTime, trig))
    ensures Mirrored(SetPosition(o, p)) && Mirrored(SetActive(o, b))
    ensures Mirrored(Fly(o)) && Mirrored(Reset(o)) && Mirrored(RemoveFromScene(o))
    ensures Mirrored(ChangeDirectionTo(o, a)) && Mirrored(ChangeDirectionBy(o, a))
  {
  }
}

=== FILE: rbhandtracking.dfy ===
/**
 The hand-collision filter. Joints are registered under the key
 "<chirality>-<joint>" (the collision sphere carries that key as its name)
 in a name map and in a per-hand map. A collision between two named
 entities is handled only while tracking is active, is dropped when it
 repeats the previous pair reversed, and is dispatched on which of the two
 names are registered joints.
 */
module RBHandTracking {
  import opened Optional

  /** `State`; `Off` is the source's `.none`. */
  datatype TrackingState = Off | Active | Inactive

  datatype Chirality = LeftHand | RightHand

  /** `HandSkeleton.JointName`. */
  datatype Joint =
    | Wrist
    | ThumbKnuckle | ThumbIntermediateBase | ThumbIntermediateTip | ThumbTip
    | IndexFingerMetacarpal | IndexFingerKnuckle | IndexFingerIntermediateBase | IndexFingerIntermediateTip | IndexFingerTip
    | MiddleFingerMetacarpal | MiddleFingerKnuckle | MiddleFingerIntermediateBase | MiddleFingerIntermediateTip | MiddleFingerTip
    | RingFingerMetacarpal | RingFingerKnuckle | RingFingerIntermediateBase | RingFingerIntermediateTip | RingFingerTip
    | LittleFingerMetacarpal | LittleFingerKnuckle | LittleFingerIntermediateBase | LittleFingerIntermediateTip | LittleFingerTip
    | ForearmWrist | ForearmArm

  /** `HandInfo`, without the model entity. */
  datatype HandInfo = HandInfo(chirality: Chirality, joint: Joint, follow: bool)

  datatype Tracker = Tracker(
    state: TrackingState,
    attached: bool,
    leftHand: map<Joint, HandInfo>,
    rightHand: map<Joint, HandInfo>,
    byName: map<string, HandInfo>,
    lastNameA: string,
    lastNameB: string,
    hasJointCallback: bool,
    hasObjectCallback: bool)

  /** A new tracker: state `none`, nothing attached or registered, last pair ("", ""). */
  function InitialTracker(): (t: Tracker)
    ensures t.state == Off && !t.attached && t.byName == map[]
    ensures t.leftHand == map[] && t.rightHand == map[]
    ensures !t.hasJointCallback && !t.hasObjectCallback
    ensures t.lastNameA == "" && t.lastNameB == ""
  {
    Tracker(Off, false, map[], map[], map[], "", "", false, false)
  }

  /** The callback a collision triggers, if any. */
  datatype Dispatch =
    | NoCallback
    | JointCollision(infoA: HandInfo, infoB: HandInfo)
    | JointObjectCollision(info: HandInfo, other: string)

  datatype Handled = Handled(next: Tracker, dispatch: Dispatch)

  /** The reversed-pair guard: (a, b) undoes the recorded (lastA, lastB). */
  predicate RepeatsReversed(t: Tracker, nameA: string, nameB: string)
  {
    nameA == t.lastNameB && nameB == t.lastNameA
  }

  /**
   `handleCollision(nameA:nameB:)`. Both names registered: the joint callback
   gets (infoA, infoB). Only one registered: the object callback gets that
   joint's info and the other name. Neither: nothing fires. A callback that
   is not set does not fire either.
   */
  function HandleCollision(t: Tracker, nameA: string, nameB: string): (r: Handled)
    ensures t.state != Active || RepeatsReversed(t, nameA, nameB) ==> r == Handled(t, NoCallback)
    ensures t.state == Active && !RepeatsReversed(t, nameA, nameB) ==>
      r.next == t.(lastNameA := nameA, lastNameB := nameB)
    ensures r.dispatch.JointCollision? ==>
      t.hasJointCallback && nameA in t.byName && nameB in t.byName
      && r.dispatch == JointCollision(t.byName[nameA], t.byName[nameB])
    ensures r.dispatch.JointObjectCollision? ==>
      t.hasObjectCallback
      && ((nameA in t.byName && nameB !in t.byName && r.dispatch == JointObjectCollision(t.byName[nameA], nameB))
          || (nameA !in t.byName && nameB in t.byName && r.dispatch == JointObjectCollision(t.byName[nameB], nameA)))
    ensures r.dispatch.NoCallback? && t.state == Active && !RepeatsReversed(t, nameA, nameB) ==>
      (nameA !in t.byName && nameB !in t.byName)
      || (nameA in t.byName && nameB in t.byName && !t.hasJointCallback)
      || ((nameA in t.byName) != (nameB in t.byName) && !t.hasObjectCallback)
  {
    if t.state != Active then Handled(t, NoCallback)
    else if nameA == t.lastNameB && nameB == t.lastNameA then Handled(t, NoCallback)
    else
      var dispatch :=
        if nameA in t.byName && nameB in t.byName then
          (if t.hasJointCallback then JointCollision(t.byName[nameA], t.byName[nameB]) else NoCallback)
        else if nameA in t.byName then
          (if t.hasObjectCallback then JointObjectCollision(t.byName[nameA], nameB) else NoCallback)
        else if nameB in t.byName then
          (if t.hasObjectCallback then JointObjectCollision(t.byName[nameB], nameA) else NoCallback)
        else NoCallback;
      Handled(t.(lastNameA := nameA, lastNameB := nameB), dispatch)
  }

  /** The same contact reported the other way round right after is swallowed and changes nothing. */
  lemma ReversedRepeatIsDropped(t: Tracker, nameA: string, nameB: string)
    requires t.state == Active && !RepeatsReversed(t, nameA, nameB)
    ensures var t' := HandleCollision(t, nameA, nameB).next;
      HandleCollision(t', nameB, nameA) == Handled(t', NoCallback)
  {
  }

  /** A repeat in the same order is not dropped (unless both names are equal). */
  lemma SameOrderRepeatIsHandled(t: Tracker, nameA: string, nameB: string)
    requires t.state == Active && !RepeatsReversed(t, nameA, nameB) && nameA != nameB
    ensures var t' := HandleCollision(t, nameA, nameB).next;
      HandleCollision(t', nameA, nameB) == HandleCollision(t, nameA, nameB)
  {
  }

  /** The recorded pair starts as ("", ""), so a first collision between two unnamed entities is dropped. */
  lemma UnnamedPairDroppedAtFirst()
    ensures HandleCollision(InitialTracker().(state := Active), "", "").dispatch == NoCallback
    ensures HandleCollision(InitialTracker().(state := Active), "", "").next == InitialTracker().(state := Active)
  {
  }

  function ChiralityName(c: Chirality): string
  {
    match c
    case LeftHand => "left"
    case RightHand => "right"
  }

  /** The joint's case name, as string interpolation prints it. */
  function JointName(j: Joint): string
  {
    match j
    case Wrist => "wrist"
    case ThumbKnuckle => "thumbKnuckle"
    case ThumbIntermediateBase => "thumbIntermediateBase"
    case ThumbIntermediateTip => "thumbIntermediateTip"
    case ThumbTip => "thumbTip"
    case IndexFingerMetacarpal => "indexFingerMetacarpal"
    case IndexFingerKnuckle => "indexFingerKnuckle"
    case IndexFingerIntermediateBase => "indexFingerIntermediateBase"
    case IndexFingerIntermediateTip => "indexFingerIntermediateTip"
    case IndexFingerTip => "indexFingerTip"
    case MiddleFingerMetacarpal => "middleFingerMetacarpal"
    case MiddleFingerKnuckle => "middleFingerKnuckle"
    case MiddleFingerIntermediateBase => "middleFingerIntermediateBase"
    case MiddleFingerIntermediateTip => "middleFingerIntermediateTip"
    case MiddleFingerTip => "middleFingerTip"
    case RingFingerMetacarpal => "ringFingerMetacarpal"
    case RingFingerKnuckle => "ringFingerKnuckle"
    case RingFingerIntermediateBase => "ringFingerIntermediateBase"
    case RingFingerIntermediateTip => "ringFingerIntermediateTip"
    case RingFingerTip => "ringFingerTip"
    case LittleFingerMetacarpal => "littleFingerMetacarpal"
    case LittleFingerKnuckle => "littleFingerKnuckle"
    case LittleFingerIntermediateBase => "littleFingerIntermediateBase"
    case LittleFingerIntermediateTip => "littleFingerIntermediateTip"
    case LittleFingerTip => "littleFingerTip"
    case ForearmWrist => "forearmWrist"
    case ForearmArm => "forearmArm"
  }

  /** The registration key "\(chirality)-\(joint)". */
  function Key(c: Chirality, j: Joint): string
  {
    ChiralityName(c) + "-" + JointName(j)
  }

  /** Keys of the two hands never collide: they differ in their first letter. */
  lemma KeysSeparateHands(j: Joint, j': Joint)
    ensures Key(LeftHand, j) != Key(RightHand, j')
  {
    assert Key(LeftHand, j)[0] == 'l' && Key(RightHand, j')[0] == 'r';
  }

  /** `attachToNode(_:content:)`. */
  function AttachToNode(t: Tracker): (r: Tracker)
    ensures r.attached && r.(attached := t.attached) == t
  {
    t.(attached := true)
  }

  /**
   `activateTracking(chirality:joint:follow:)`: a no-op unless attached;
   otherwise the info goes into the hand's map under the joint and into the
   name map under the key.
   */
  function ActivateTracking(t: Tracker, c: Chirality, j: Joint, follow: bool): (r: Tracker)
    ensures !t.attached ==> r == t
    ensures t.attached ==>
      GetHandInfo(r, Key(c, j)) == Some(HandInfo(c, j, follow))
      && r.byName.Keys == t.byName.Keys + {Key(c, j)}
      && (forall name :: name != Key(c, j) ==> GetHandInfo(r, name) == GetHandInfo(t, name))
    ensures t.attached && c == LeftHand ==>
      r.leftHand == t.leftHand[j := HandInfo(c, j, follow)] && r.rightHand == t.rightHand
    ensures t.attached && c == RightHand ==>
      r.rightHand == t.rightHand[j := HandInfo(c, j, follow)] && r.leftHand == t.leftHand
    ensures r.state == t.state && r.lastNameA == t.lastNameA && r.lastNameB == t.lastNameB
    ensures r.attached == t.attached
    ensures r.hasJointCallback == t.hasJointCallback && r.hasObjectCallback == t.hasObjectCallback
  {
    if !t.attached then t
    else
      var key := Key(c, j);
      var info := HandInfo(c, j, follow);
      var t' := if c == LeftHand then t.(leftHand := t.leftHand[j := info])
                else t.(rightHand := t.rightHand[j := info]);
      t'.(byName := t'.byName[key := info])
  }

  /** `getHandInfo(name:)`. */
  function GetHandInfo(t: Tracker, name: string): (r: Option<HandInfo>)
    ensures r.Some? <==> name in t.byName
    ensures r.Some? ==> r.value == t.byName[name]
  {
    if name in t.byName then Some(t.byName[name]) else None
  }

  /**
   The state change of one hand-anchor update (`startTracking` and
   `processHandJoints`, with the joint transforms left out): the state
   becomes `inactive`, then `active` when the anchor is tracked and one of
   that hand's registered joints is among the tracked joints.
   */
  function AnchorUpdate(t: Tracker, isTracked: bool, c: Chirality, trackedJoints: set<Joint>): (r: Tracker)
    ensures r.state == Active <==>
      isTracked && exists j :: j in trackedJoints && j in (if c == LeftHand then t.leftHand else t.rightHand)
    ensures r.state != Off
    ensures r.(state := t.state) == t
  {
    var registered := if c == LeftHand then t.leftHand else t.rightHand;
    if isTracked && exists j :: j in trackedJoints && j in registered then t.(state := Active)
    else t.(state := Inactive)
  }

  /** Setting `onJointCollision` / `onJointObjectCollision`. */
  function SetCallbacks(t: Tracker, onJoint: bool, onObject: bool): (r: Tracker)
    ensures r.hasJointCallback == onJoint && r.hasObjectCallback == onObject
    ensures r.(hasJointCallback := t.hasJointCallback, hasObjectCallback := t.hasObjectCallback) == t
  {
    t.(hasJointCallback := onJoint, hasObjectCallback := onObject)
  }
}

=== FILE: rblog.dfy ===
/**
 The logger: six severities with integer raw values, a global threshold
 (default `debug`), at most one extra handler, and a fixed output prefix
 per severity. Output is modelled as the list of effects one call has:
 the handler call (if a handler is installed), then the printed line.
 The `String(format:)` expansion of the `rb*` shorthands is not modelled:
 the message arrives already formatted.
 */
module RBLog {
  import opened Optional

  datatype Severity = Trace | Debug | Info | Warning | Error | Fatal

  /** The enum's `rawValue`. */
  function RawValue(s: Severity): (r: nat)
    ensures r <= 5
    ensures r == 0 <==> s == Trace
    ensures r == 5 <==> s == Fatal
  {
    match s
    case Trace => 0
    case Debug => 1
    case Info => 2
    case Warning => 3
    case Error => 4
    case Fatal => 5
  }

  /** s is at least as severe as t. */
  predicate AtLeast(s: Severity, t: Severity)
  {
    RawValue(s) >= RawValue(t)
  }

  /** The raw values order the six severities totally, trace lowest and fatal highest. */
  lemma SeverityTotalOrder()
    ensures RawValue(Trace) < RawValue(Debug) < RawValue(Info) < RawValue(Warning) < RawValue(Error) < RawValue(Fatal)
    ensures forall s: Severity, t: Severity :: AtLeast(s, t) || AtLeast(t, s)
    ensures forall s: Severity, t: Severity :: AtLeast(s, t) && AtLeast(t, s) ==> s == t
    ensures forall s: Severity :: AtLeast(s, Trace) && AtLeast(Fatal, s)
  {
  }

  /** A handler is known by an opaque token; there is one slot for it. */
  datatype Logger = Logger(threshold: Severity, handler: Option<nat>)

  /** The logger at process start: threshold `debug`, no handler. */
  const DefaultLogger: Logger := Logger(Debug, None)

  function SetThreshold(l: Logger, s: Severity): (r: Logger)
    ensures r.threshold == s && r.handler == l.handler
  {
    l.(threshold := s)
  }

  /** Installing a handler replaces whatever handler was there. */
  function SetHandler(l: Logger, h: Option<nat>): (r: Logger)
    ensures r.handler == h && r.threshold == l.threshold
  {
    l.(handler := h)
  }

  datatype Effect =
    | HandlerCalled(handler: nat, message: string, severity: Severity)
    | Printed(line: string)

  /** The text printed in front of the message for each severity. */
  function Prefix(s: Severity): string
  {
    match s
    case Trace => "[RBLOG] "
    case Debug => "[RBLOG] > "
    case Info => "[RBLOG] INF-"
    case Warning => "[RBLOG] WRN-"
    case Error => "[RBLOG] ERR-"
    case Fatal => "[RBLOG] FAT-"
  }

  /** Every prefix starts with the common tag, and no two severities share a prefix. */
  lemma PrefixTable()
    ensures forall s: Severity :: |Prefix(s)| >= 8 && Prefix(s)[..8] == "[RBLOG] "
    ensures forall s: Severity, t: Severity :: s != t ==> Prefix(s) != Prefix(t)
  {
    forall s: Severity
      ensures |Prefix(s)| >= 8 && Prefix(s)[..8] == "[RBLOG] "
    {
      match s
      case Trace =>
      case Debug => assert Prefix(s) == "[RBLOG] " + "> ";
      case Info => assert Prefix(s) == "[RBLOG] " + "INF-";
      case Warning => assert Prefix(s) == "[RBLOG] " + "WRN-";
      case Error => assert Prefix(s) == "[RBLOG] " + "ERR-";
      case Fatal => assert Prefix(s) == "[RBLOG] " + "FAT-";
    }
    forall s: Severity, t: Severity | s != t
      ensures Prefix(s) != Prefix(t)
    {
      PrefixesDiffer(s, t);
    }
  }

  lemma PrefixesDiffer(s: Severity, t: Severity)
    requires s != t
    ensures Prefix(s) != Prefix(t)
  {
    if |Prefix(s)| == |Prefix(t)| {
      // Only the four lettered tags share a length; their first letters differ.
      assert Prefix(s)[8] == TagLetter(s) && Prefix(t)[8] == TagLetter(t);
    }
  }

  /** The character after the common tag, for the four lettered prefixes. */
  function TagLetter(s: Severity): char
  {
    match s
    case Trace => ' '
    case Debug => '>'
    case Info => 'I'
    case Warning => 'W'
    case Error => 'E'
    case Fatal => 'F'
  }

  /** The private `log`: the handler (if any) gets the message first, then the prefixed line is printed. */
  function Write(l: Logger, message: string, s: Severity): seq<Effect>
  {
    (if l.handler.Some? then [HandlerCalled(l.handler.value, message, s)] else [])
      + [Printed(Prefix(s) + message)]
  }

  /**
   One of the six level functions (`fatal`, `error`, ..., `trace`), all of
   the same shape: write only when the level's raw value reaches the threshold's.
   */
  function Emit(l: Logger, message: string, s: Severity): (effects: seq<Effect>)
    ensures effects != [] <==> RawValue(s) >= RawValue(l.threshold)
    ensures effects != [] ==> effects[|effects| - 1] == Printed(Prefix(s) + message)
    ensures effects != [] ==> (|effects| == 2 <==> l.handler.Some?)
    ensures effects != [] && l.handler.Some? ==> effects[0] == HandlerCalled(l.handler.value, message, s)
    ensures |effects| <= 2
  {
    if RawValue(s) >= RawValue(l.threshold) then Write(l, message, s) else []
  }

  /** Fatal messages get through whatever the threshold. */
  lemma FatalAlwaysEmitted(l: Logger, message: string)
    ensures Emit(l, message, Fatal) != []
  {
  }

  /** Under the default threshold only trace messages are dropped. */
  lemma DefaultThresholdDropsOnlyTrace(message: string, s: Severity)
    ensures Emit(DefaultLogger, message, s) == [] <==> s == Trace
  {
  }

  /** Raising the threshold never lets through a message that a lower threshold dropped. */
  lemma ThresholdMonotone(l: Logger, t: Severity, message: string, s: Severity)
    requires AtLeast(t, l.threshold)
    ensures Emit(SetThreshold(l, t), message, s) != [] ==> Emit(l, message, s) != []
  {
  }

  /** After a handler is installed, every emitted message reaches that handler and no earlier one. */
  lemma NewHandlerReplacesOld(l: Logger, h: nat, message: string, s: Severity)
    requires AtLeast(s, l.threshold)
    ensures Emit(SetHandler(l, Some(h)), message, s)[0] == HandlerCalled(h, message, s)
    ensures forall e :: e in Emit(SetHandler(l, Some(h)), message, s) && e.HandlerCalled? ==> e.handler == h
  {
  }
}

=== FILE: rbmath.dfy ===
/**
 The math helpers of the game: degree/radian conversion, the axis
 rotations and their composition, planar distance and the random helpers.
 The random source (`arc4random_uniform`) is a parameter: every random
 helper takes the value the generator drew.
 */
module RBMath {
  import opened Simd
  import opened Optional

  /**
   `Float.pi`, written out exactly: 0x1.921fb4p1, the single-precision value
   just below pi (the standard library rounds pi toward zero).
   */
  const Pi: real := 3.141592502593994140625

  function DegreesToRadians(value: real): (r: real)
    ensures (value < 0.0 <==> r < 0.0) && (value == 0.0 <==> r == 0.0)
  {
    value * Pi / 180.0
  }

  /** `radiansToegrees` in the source (sic). */
  function RadiansToDegrees(value: real): (r: real)
    ensures (value < 0.0 <==> r < 0.0) && (value == 0.0 <==> r == 0.0)
  {
    value * 180.0 / Pi
  }

  /** The two conversions undo each other, in both orders. */
  lemma ConversionsAreInverse(v: real)
    ensures RadiansToDegrees(DegreesToRadians(v)) == v
    ensures DegreesToRadians(RadiansToDegrees(v)) == v
  {
  }

  /** A half turn in degrees is pi radians and vice versa. */
  lemma HalfTurn()
    ensures DegreesToRadians(180.0) == Pi && RadiansToDegrees(Pi) == 180.0
  {
  }

  const XAxis: Vec3 := Vec3(1.0, 0.0, 0.0)
  const YAxis: Vec3 := Vec3(0.0, 1.0, 0.0)
  const ZAxis: Vec3 := Vec3(0.0, 0.0, 1.0)

  function RotateX(x: real, trig: Trig): Quat
  {
    AxisAngle(DegreesToRadians(x), XAxis, trig)
  }

  function RotateY(y: real, trig: Trig): Quat
  {
    AxisAngle(DegreesToRadians(y), YAxis, trig)
  }

  function RotateZ(z: real, trig: Trig): Quat
  {
    AxisAngle(DegreesToRadians(z), ZAxis, trig)
  }

  /**
   `rotate(x:y:z:)`: the three axis quaternions are built inline and
   multiplied X * Y * Z. The angles are in degrees.
   */
  function Rotate(x: real, y: real, z: real, trig: Trig): Quat
  {
    var xx := DegreesToRadians(x);
    var yy := DegreesToRadians(y);
    var zz := DegreesToRadians(z);
    var qx := AxisAngle(xx, Vec3(1.0, 0.0, 0.0), trig);
    var qy := AxisAngle(yy, Vec3(0.0, 1.0, 0.0), trig);
    var qz := AxisAngle(zz, Vec3(0.0, 0.0, 1.0), trig);
    QMul(QMul(qx, qy), qz)
  }

  /** The composed rotation is the single-axis rotations multiplied in X, Y, Z order. */
  lemma RotateIsProductOfAxisRotations(x: real, y: real, z: real, trig: Trig)
    ensures Rotate(x, y, z, trig) == QMul(QMul(RotateX(x, trig), RotateY(y, trig)), RotateZ(z, trig))
  {
  }

  /** Rotating about no axis at all is the identity quaternion when cos 0 = 1 and sin 0 = 0. */
  lemma RotateZeroIsIdentity(trig: Trig)
    requires trig.sin(0.0) == 0.0 && trig.cos(0.0) == 1.0
    ensures Rotate(0.0, 0.0, 0.0, trig) == Quat(0.0, 0.0, 0.0, 1.0)
  {
    var one := Quat(0.0, 0.0, 0.0, 1.0);
    ZeroTurnIsIdentity(XAxis, trig);
    ZeroTurnIsIdentity(YAxis, trig);
    ZeroTurnIsIdentity(ZAxis, trig);
    IdentityIsLeftUnit(one);
    RotateIsProductOfAxisRotations(0.0, 0.0, 0.0, trig);
  }

  /** A zero-degree turn about any axis is the identity quaternion. */
  lemma ZeroTurnIsIdentity(axis: Vec3, trig: Trig)
    requires trig.sin(0.0) == 0.0 && trig.cos(0.0) == 1.0
    ensures AxisAngle(DegreesToRadians(0.0), axis, trig) == Quat(0.0, 0.0, 0.0, 1.0)
  {
    assert DegreesToRadians(0.0) / 2.0 == 0.0;
  }

  /** The identity quaternion is a left unit of the product. */
  lemma IdentityIsLeftUnit(q: Quat)
    ensures QMul(Quat(0.0, 0.0, 0.0, 1.0), q) == q
  {
    var zero := Vec3(0.0, 0.0, 0.0);
    assert Cross(zero, Vec3(q.ix, q.iy, q.iz)) == zero;
    assert Dot(zero, Vec3(q.ix, q.iy, q.iz)) == 0.0;
  }

  /**
   `distance`: `hypotf(x1 - x2, y1 - y2)`, with `hypotf(a, b)` read as the
   square root of a*a + b*b; the square root is a parameter.
   */
  function Distance(x1: real, y1: real, x2: real, y2: real, sqrt: real -> real): real
  {
    var dx := x1 - x2;
    var dy := y1 - y2;
    sqrt(dx * dx + dy * dy)
  }

  lemma DistanceSymmetric(x1: real, y1: real, x2: real, y2: real, sqrt: real -> real)
    ensures Distance(x1, y1, x2, y2, sqrt) == Distance(x2, y2, x1, y1, sqrt)
  {
    assert (x1 - x2) * (x1 - x2) == (x2 - x1) * (x2 - x1);
    assert (y1 - y2) * (y1 - y2) == (y2 - y1) * (y2 - y1);
  }

  lemma DistanceToSelfIsZero(x: real, y: real, sqrt: real -> real)
    requires sqrt(0.0) == 0.0
    ensures Distance(x, y, x, y, sqrt) == 0.0
  {
  }

  const UInt32Limit: int := 0x1_0000_0000

  /**
   What `arc4random_uniform(upperBound)` may return: a value below the bound,
   or 0 when the bound is 0.
   */
  predicate ValidDraw(upperBound: int, draw: nat)
  {
    if upperBound == 0 then draw == 0 else draw < upperBound
  }

  /**
   `random(min:max:)` = min + arc4random_uniform(UInt32(max - min + 1)).
   `None` stands for the trap of the `UInt32` conversion, which happens when
   max - min + 1 is negative or does not fit in 32 bits.
   */
  function Random(min: int, max: int, draw: nat): (r: Option<int>)
    ensures r.None? <==> !(0 <= max - min + 1 < UInt32Limit)
    ensures r.Some? && ValidDraw(max - min + 1, draw) && min <= max ==> min <= r.value <= max
    ensures r.Some? && ValidDraw(max - min + 1, draw) && max == min - 1 ==> r.value == min
  {
    var upperBound := max - min + 1;
    if 0 <= upperBound < UInt32Limit then Some(min + draw) else None
  }

  /** The eleven values `random01f` can produce: 0.0, 0.1, ..., 1.0. */
  function TenthSteps(): set<real>
  {
    set k: int | 0 <= k <= 10 :: Tenths(k)
  }

  function Tenths(k: int): real
  {
    (k as real) * 0.1
  }

  /** `random01f`: an integer draw in 0...10 scaled by 0.1. */
  function Random01f(draw: nat): (r: real)
    requires ValidDraw(11, draw)
    ensures r in TenthSteps()
    ensures 0.0 <= r <= 1.0
  {
    var rnd := Random(0, 10, draw);
    var k := rnd.value;
    assert 0 <= k <= 10;
    assert Tenths(k) in TenthSteps();
    Tenths(k)
  }

  /** `randomTrueFalse`: true exactly when the 0...1 draw is 1. */
  function RandomTrueFalse(draw: nat): (r: bool)
    requires ValidDraw(2, draw)
    ensures r <==> draw == 1
  {
    var rnd := Random(0, 1, draw).value;
    if rnd == 1 then true else false
  }

  /** `randomPlusMinus`: 1.0 when the 0...1 draw is 1, otherwise -1.0. */
  function RandomPlusMinus(draw: nat): (r: real)
    requires ValidDraw(2, draw)
    ensures r == 1.0 <==> draw == 1
    ensures r == -1.0 <==> draw == 0
  {
    var rnd := Random(0, 1, draw).value;
    if rnd == 1 then 1.0 else -1.0
  }
}

=== FILE: rbtorus.dfy ===
/**
 The torus mesh builder. Vertices lie on a grid of (tubeSegments + 1) rows
 of (segments + 1) columns, the seam duplicated. The index buffer covers
 each grid cell (i, j) with two triangles sharing the diagonal
 (i, j)-(i + 1, j + 1). Vertex positions and normals are trigonometry
 over floats and come in as data. The UV fold is modelled.
 */
module RBTorus {
  import opened Simd

  const UInt32Limit: int := 0x1_0000_0000

  newtype uint32 = x: int | 0 <= x < 0x1_0000_0000

  /** Index of the vertex in grid row `row`, column `col`, for rows of `rowCount` vertices. */
  function GridVertex(row: int, col: int, rowCount: int): int
  {
    row * rowCount + col
  }

  /** The six indices the index loop appends for cell (i, j), in source order. */
  function Quad(i: int, j: int, rowCount: int): (q: seq<int>)
    ensures |q| == 6
  {
    [i * rowCount + j,
     i * rowCount + j + 1,
     (i + 1) * rowCount + j + 1,
     (i + 1) * rowCount + j + 1,
     (i + 1) * rowCount + j,
     i * rowCount + j]
  }

  /**
   The two triangles of a cell are (i,j) (i,j+1) (i+1,j+1) and
   (i+1,j+1) (i+1,j) (i,j): the 1st index equals the 6th and the 3rd the 4th.
   */
  lemma QuadSharesDiagonal(i: int, j: int, rowCount: int)
    ensures Quad(i, j, rowCount)[..3]
         == [GridVertex(i, j, rowCount), GridVertex(i, j + 1, rowCount), GridVertex(i + 1, j + 1, rowCount)]
    ensures Quad(i, j, rowCount)[3..]
         == [GridVertex(i + 1, j + 1, rowCount), GridVertex(i + 1, j, rowCount), GridVertex(i, j, rowCount)]
    ensures Quad(i, j, rowCount)[0] == Quad(i, j, rowCount)[5]
    ensures Quad(i, j, rowCount)[2] == Quad(i, j, rowCount)[3]
  {
  }

  /** Number of vertices of the full grid. */
  function GridSize(segments: int, tubeSegments: int): int
  {
    (tubeSegments + 1) * (segments + 1)
  }

  /** Every index of a cell inside the grid names a grid vertex. */
  lemma QuadInGrid(i: int, j: int, segments: int, tubeSegments: int)
    requires 0 <= i < tubeSegments && 0 <= j < segments
    ensures InRange(Quad(i, j, segments + 1), GridSize(segments, tubeSegments))
  {
    var rowCount := segments + 1;
    MulNonNegative(i, rowCount);
    MulStep(i, rowCount);
    MulMonotone(i + 1, tubeSegments, rowCount);
    MulStep(tubeSegments, rowCount);
    assert GridSize(segments, tubeSegments) == (tubeSegments + 1) * rowCount;
  }

  lemma MulNonNegative(a: int, b: int)
    requires 0 <= a && 0 <= b
    ensures 0 <= a * b
  {
  }

  lemma MulStep(a: int, b: int)
    ensures (a + 1) * b == a * b + b
  {
  }

  lemma MulMonotone(a: int, a': int, b: int)
    requires a <= a' && 0 <= b
    ensures a * b <= a' * b
  {
    MulNonNegative(a' - a, b);
    assert (a' - a) * b == a' * b - a * b;
  }

  /** Every element of q lies in [0, bound). */
  predicate InRange(q: seq<int>, bound: int)
  {
    forall c :: 0 <= c < |q| ==> 0 <= q[c] < bound
  }

  /** The `UInt32` conversions cannot trap: the grid has at most 2^32 vertices, or no cell. */
  predicate GridFits(segments: int, tubeSegments: int)
  {
    segments <= 0 || tubeSegments <= 0 || GridSize(segments, tubeSegments) <= UInt32Limit
  }

  function ToUInt32(q: seq<int>): (r: seq<uint32>)
    requires InRange(q, UInt32Limit)
    ensures |r| == |q| && forall c :: 0 <= c < |q| ==> r[c] as int == q[c]
  {
    seq(|q|, c requires 0 <= c < |q| && 0 <= q[c] < UInt32Limit => q[c] as uint32)
  }

  function Max0(n: int): nat
  {
    if n > 0 then n else 0
  }

  /** Cell (i', j') comes before cell number n in row-major order. */
  lemma EarlierCell(i': int, j': int, i: int, segments: int)
    requires 0 <= i' < i && 0 <= j' < segments
    ensures i' * segments + j' < i * segments
  {
    MulStep(i', segments);
    MulMonotone(i' + 1, i, segments);
  }

  /** Position in the index buffer of corner c of cell (i, j), for rows of `segments` cells. */
  function Slot(i: int, j: int, segments: int, c: int): int
  {
    6 * (i * segments + j) + c
  }

  /** The first n cells, in row-major order, are in the buffer at six indices each. */
  ghost predicate CellsEmitted(indices: seq<uint32>, segments: int, n: int)
  {
    forall i', j', c ::
      0 <= i' && 0 <= j' < segments && 0 <= c < 6 && i' * segments + j' < n ==>
        Slot(i', j', segments, c) < |indices|
        && indices[Slot(i', j', segments, c)] as int == Quad(i', j', segments + 1)[c]
  }

  /**
   The index loop of `generate`: rows i < tubeSegments, columns j < segments,
   six indices per cell. It emits 6 * segments * tubeSegments indices when
   both counts are positive and none otherwise, cell by cell in row-major order.
   */
  method GenerateIndices(segments: int, tubeSegments: int) returns (indices: seq<uint32>)
    requires GridFits(segments, tubeSegments)
    ensures |indices| == if segments > 0 && tubeSegments > 0 then 6 * segments * tubeSegments else 0
    ensures forall i, j, c ::
      0 <= i < tubeSegments && 0 <= j < segments && 0 <= c < 6 ==>
        Slot(i, j, segments, c) < |indices|
        && indices[Slot(i, j, segments, c)] as int == Quad(i, j, segments + 1)[c]
    ensures forall k :: 0 <= k < |indices| ==> indices[k] as int < GridSize(segments, tubeSegments)
  {
    ghost var width := Max0(segments);
    indices := [];
    var i := 0;
    var rowCount := segments + 1;
    while i < tubeSegments
      invariant 0 <= i && (tubeSegments > 0 ==> i <= tubeSegments) && (tubeSegments <= 0 ==> i == 0)
      invariant |indices| == 6 * (i * width)
      invariant CellsEmitted(indices, segments, i * width)
      invariant forall k :: 0 <= k < |indices| ==> indices[k] as int < GridSize(segments, tubeSegments)
    {
      var j := 0;
      while j < segments
        invariant 0 <= j <= width
        invariant |indices| == 6 * (i * width + j)
        invariant CellsEmitted(indices, segments, i * width + j)
        invariant forall k :: 0 <= k < |indices| ==> indices[k] as int < GridSize(segments, tubeSegments)
      {
        QuadInGrid(i, j, segments, tubeSegments);
        var quad := ToUInt32(Quad(i, j, rowCount));
        AppendCell(indices, quad, segments, i, j);
        indices := indices + quad;
        j := j + 1;
      }
      MulStep(i, width);
      i := i + 1;
    }
    assert i == Max0(tubeSegments);
    if segments > 0 && tubeSegments > 0 {
      assert |indices| == 6 * (tubeSegments * segments);
    }
    AllCellsEmitted(indices, segments, tubeSegments);
  }

  /** Appending the six indices of cell (i, j) extends the emitted prefix by one cell. */
  lemma AppendCell(before: seq<uint32>, quad: seq<uint32>, segments: int, i: int, j: int)
    requires 0 <= i && 0 <= j < segments
    requires |before| == 6 * (i * segments + j) && CellsEmitted(before, segments, i * segments + j)
    requires |quad| == 6 && forall c :: 0 <= c < 6 ==> quad[c] as int == Quad(i, j, segments + 1)[c]
    ensures CellsEmitted(before + quad, segments, i * segments + j + 1)
  {
    var after := before + quad;
    forall i', j', c
      | 0 <= i' && 0 <= j' < segments && 0 <= c < 6 && i' * segments + j' < i * segments + j + 1
      ensures Slot(i', j', segments, c) < |after|
      ensures after[Slot(i', j', segments, c)] as int == Quad(i', j', segments + 1)[c]
    {
      if i' * segments + j' < i * segments + j {
      } else {
        CellNumberUnique(i', j', i, j, segments);
        assert Slot(i', j', segments, c) == |before| + c;
      }
    }
  }

  /** After all rows, every cell of the grid is in the buffer. */
  lemma AllCellsEmitted(indices: seq<uint32>, segments: int, tubeSegments: int)
    requires CellsEmitted(indices, segments, Max0(tubeSegments) * Max0(segments))
    ensures forall i, j, c ::
      0 <= i < tubeSegments && 0 <= j < segments && 0 <= c < 6 ==>
        Slot(i, j, segments, c) < |indices|
        && indices[Slot(i, j, segments, c)] as int == Quad(i, j, segments + 1)[c]
  {
    forall i', j', c
      | 0 <= i' < tubeSegments && 0 <= j' < segments && 0 <= c < 6
      ensures Slot(i', j', segments, c) < |indices|
      ensures indices[Slot(i', j', segments, c)] as int == Quad(i', j', segments + 1)[c]
    {
      assert Max0(tubeSegments) == tubeSegments && Max0(segments) == segments;
      EarlierCell(i', j', tubeSegments, segments);
      CellAt(indices, segments, Max0(tubeSegments) * Max0(segments), i', j', c);
    }
  }

  lemma CellAt(indices: seq<uint32>, segments: int, n: int, i: int, j: int, c: int)
    requires CellsEmitted(indices, segments, n)
    requires 0 <= i && 0 <= j < segments && 0 <= c < 6 && i * segments + j < n
    ensures Slot(i, j, segments, c) < |indices|
    ensures indices[Slot(i, j, segments, c)] as int == Quad(i, j, segments + 1)[c]
  {
  }

  /** Two cells with the same row-major number are the same cell. */
  lemma CellNumberUnique(i': int, j': int, i: int, j: int, segments: int)
    requires 0 <= i' && 0 <= j' < segments && 0 <= i && 0 <= j < segments
    requires i' * segments + j' == i * segments + j
    ensures i' == i && j' == j
  {
    if i' < i {
      EarlierCell(i', j', i, segments);
    } else if i < i' {
      EarlierCell(i, j, i', segments);
    }
  }

  /**
   Row-major order: index k of the buffer is corner k % 6 of cell number
   k / 6, which lies in row (k / 6) / segments and column (k / 6) % segments.
   */
  lemma RowMajorCell(k: int, segments: int, tubeSegments: int)
    requires segments > 0 && tubeSegments > 0 && 0 <= k < 6 * segments * tubeSegments
    ensures 0 <= (k / 6) / segments < tubeSegments && 0 <= (k / 6) % segments < segments
    ensures k == Slot((k / 6) / segments, (k / 6) % segments, segments, k % 6)
  {
    var q := k / 6;
    var i := q / segments;
    var j := q % segments;
    assert k == 6 * q + k % 6;
    assert q == i * segments + j;
    assert q < segments * tubeSegments;
    if i >= tubeSegments {
      MulMonotone(tubeSegments, i, segments);
      assert false;
    }
  }

  /** The (u, v) texture coordinate of the vertex at toroidal angle iAngle and poloidal angle jAngle, in degrees. */
  function TorusUV(iAngle: real, jAngle: real): (uv: Vec2)
    ensures 0.0 <= iAngle <= 360.0 ==> 0.0 <= uv.x <= 1.0
    ensures 0.0 <= jAngle <= 360.0 ==> 0.0 <= uv.y <= 1.0
  {
    var u := 1.0 - iAngle / 360.0;
    var v := 2.0 * jAngle / 360.0 - 1.0;
    Vec2(u, if v < 0.0 then v * -1.0 else v)
  }

  /** The fold maps the second half of the poloidal sweep onto the first: v(j) = v(360 - j). */
  lemma UVFoldIsMirror(iAngle: real, jAngle: real)
    ensures TorusUV(iAngle, jAngle).y == TorusUV(iAngle, 360.0 - jAngle).y
    ensures TorusUV(iAngle, 180.0).y == 0.0
    ensures TorusUV(iAngle, 0.0).y == 1.0 && TorusUV(iAngle, 360.0).y == 1.0
  {
  }

  /** `RBVertex`. */
  datatype Vertex = Vertex(position: Vec3, normal: Vec3, uv: Vec2)

  /** The material assignment of a descriptor: the default one, or one material index per face. */
  datatype Materials = DefaultMaterials | PerFace(faces: seq<uint32>)

  /** The parts of `MeshDescriptor` the builder fills in. */
  datatype MeshDescriptor = MeshDescriptor(
    positions: seq<Vec3>,
    normals: seq<Vec3>,
    textureCoordinates: seq<Vec2>,
    triangles: seq<uint32>,
    materials: Materials)

  /**
   `generateMeshDescriptor(with:materials:)`: one pass over the vertices
   copying position, normal and uv into three parallel buffers, in order.
   Per-face materials are attached only when the list is non-empty.
   */
  method GenerateMeshDescriptor(vertices: seq<Vertex>, indices: seq<uint32>, materials: seq<uint32>)
    returns (d: MeshDescriptor)
    ensures |d.positions| == |vertices| && |d.normals| == |vertices| && |d.textureCoordinates| == |vertices|
    ensures forall k :: 0 <= k < |vertices| ==>
      d.positions[k] == vertices[k].position
      && d.normals[k] == vertices[k].normal
      && d.textureCoordinates[k] == vertices[k].uv
    ensures d.triangles == indices
    ensures d.materials.PerFace? <==> materials != []
    ensures d.materials.PerFace? ==> d.materials.faces == materials
  {
    var positions: seq<Vec3> := [];
    var normals: seq<Vec3> := [];
    var uvs: seq<Vec2> := [];
    for n := 0 to |vertices|
      invariant |positions| == n && |normals| == n && |uvs| == n
      invariant forall k :: 0 <= k < n ==>
        positions[k] == vertices[k].position && normals[k] == vertices[k].normal && uvs[k] == vertices[k].uv
    {
      var vx := vertices[n];
      positions := positions + [vx.position];
      normals := normals + [vx.normal];
      uvs := uvs + [vx.uv];
    }
    d := MeshDescriptor(positions, normals, uvs, indices, DefaultMaterials);
    if materials != [] {
      d := d.(materials := PerFace(materials));
    }
  }

  /**
   `generate`: the index buffer over the vertex grid, packed with the
   vertices into one descriptor. The vertices come in as data; when they
   form the full grid, every triangle index names one of them.
   */
  method Generate(segments: int, tubeSegments: int, vertices: seq<Vertex>) returns (d: MeshDescriptor)
    requires GridFits(segments, tubeSegments)
    ensures |d.triangles| == if segments > 0 && tubeSegments > 0 then 6 * segments * tubeSegments else 0
    ensures |d.triangles| % 3 == 0
    ensures |vertices| == GridSize(segments, tubeSegments) ==>
      forall k :: 0 <= k < |d.triangles| ==> (d.triangles[k] as int) < |vertices|
    ensures |d.positions| == |vertices| && d.materials == DefaultMaterials
  {
    var indices := GenerateIndices(segments, tubeSegments);
    ghost var cells := if segments > 0 && tubeSegments > 0 then segments * tubeSegments else 0;
    assert |indices| == 3 * (2 * cells);
    d := GenerateMeshDescriptor(vertices, indices, []);
  }
}

=== FILE: simd.dfy ===
/**
 Vector, quaternion and trigonometry carriers shared by the model. The
 source works on `SIMD2/3/4<Float>` and `simd_quatf`; here every component
 is a mathematical real, so float rounding is not modelled.
 */
module Simd {

  datatype Vec2 = Vec2(x: real, y: real)

  datatype Vec3 = Vec3(x: real, y: real, z: real)

  datatype Vec4 = Vec4(x: real, y: real, z: real, w: real)

  /** A quaternion with imaginary part (ix, iy, iz) and real part r. */
  datatype Quat = Quat(ix: real, iy: real, iz: real, r: real)

  /**
   The platform's sine and cosine (radians in, real out). They are left
   uninterpreted: every operation that needs them takes a `Trig` argument.
   */
  datatype Trig = Trig(sin: real -> real, cos: real -> real)

  function Cross(a: Vec3, b: Vec3): Vec3
  {
    Vec3(a.y * b.z - a.z * b.y, a.z * b.x - a.x * b.z, a.x * b.y - a.y * b.x)
  }

  function Dot(a: Vec3, b: Vec3): real
  {
    a.x * b.x + a.y * b.y + a.z * b.z
  }

  /** Hamilton product `a * b`, the `*` of `simd_quatf`. */
  function QMul(a: Quat, b: Quat): Quat
  {
    var av := Vec3(a.ix, a.iy, a.iz);
    var bv := Vec3(b.ix, b.iy, b.iz);
    var c := Cross(av, bv);
    Quat(a.r * b.ix + b.r * a.ix + c.x,
         a.r * b.iy + b.r * a.iy + c.y,
         a.r * b.iz + b.r * a.iz + c.z,
         a.r * b.r - Dot(av, bv))
  }

  /** `simd_quatf(angle:axis:)` for a unit axis: (axis * sin(angle/2), cos(angle/2)). */
  function AxisAngle(angle: real, axis: Vec3, trig: Trig): Quat
  {
    var s := trig.sin(angle / 2.0);
    Quat(axis.x * s, axis.y * s, axis.z * s, trig.cos(angle / 2.0))
  }
}
